=== FILE: README.md ===
# Agent Arena: client synchronisation and battle bookkeeping in Dafny

This project models the small stateful core of Agent Arena. Agent Arena is a
browser client for an "agent battle" game, and the repository also holds two
Python backend scripts. Everything is modelled as pure functions over explicit
inputs:

- **Countdown** (`components/Layout.jsx`, `pages/Season.jsx`): splits the
  remaining milliseconds into days, hours, minutes and seconds. The exact
  real-number value of the source's floating-point expression
  `Math.floor((diff / unit) % wrap)` is defined as well, and proved equal to
  integer division and remainder for every non-negative difference.
- **Shell** (`Layout.jsx`): the season banner, and the season and stamina
  snapshots. It is a state machine over route changes, arriving replies and
  `stamina-update` window events. It keeps exactly one listener registered
  while mounted.
- **Season page**: the one-second timer and its interval lifecycle, the
  fetched data and the top-ten leaderboard.
- **Battle, Market and Community pages**: each user action is a function from
  the server's replies to the **effect trace** it produces: requests, the
  `stamina-update` dispatch, alerts, and the setting and clearing of
  pending-action flags. The list logic is a pure function: the live/all
  filter, the shop filter, the pending proposals, the feed URL per category,
  title truncation and the selection after a fetch.
- **Worker** (`backend/worker/main.py`): applies the judge's damage to the
  acting agent's opponent, floored at zero. It advances the turn and picks
  the automatic actor by turn parity.
- **PoC simulator** (`backend/poc_simulator.py`): the five-turn loop with HP
  floored at zero, the knock-out stop and the winner decision. The shape of
  a mock action is modelled too.

The current time, server replies, judge answers and random draws are all
parameters. A request the client issues appears as an effect (`Get`/`Post`),
and its reply is a separate input: `Threw` when `fetch` or `res.json()`
throws, or `Responded(ok, body)`.

The model follows the code, including these behaviours:

- A shell read that gets *any* response overwrites its snapshot. Only a
  thrown read keeps the previous one, because there is no `res.ok` check.
- After a fetch with an empty or missing list, the battle selection keeps its
  old value, even if that battle is gone. A non-empty list always selects its
  first battle.
- Pending-action flags exist only for purchases and votes (the item or
  proposal id) and for posting (a boolean). Starting a battle and reacting
  have no pending flag.
- If a strategy submission *throws*, the start-battle flow ends in the generic
  alert: there is no `stamina-update` and no re-read. A *rejected* strategy
  submission is not noticed.
- A successful purchase shows its alert before it dispatches `stamina-update`.
- The strategy URL interpolates the create reply's `battle_id` without
  defaulting: an empty id leaves an empty path segment, and a `null` or
  missing one prints as `null` or `undefined`.
- The worker's `.get(key, default)` defaults only a missing member. A `null`
  judge damage makes the subtraction raise, so the action is skipped. A
  `null` description or keyword prints as `None` in the log. A `null` queue
  list makes the tick raise as soon as an automatic action is appended to it.

## Model

| member | source | states |
|---|---|---|
| `Countdown.Decompose` | agent-arena/frontend/src/pages/Season.jsx:47-53 | for a positive difference: hours in [0,24), minutes and seconds in [0,60), days ≥ 0, and the reading accounts for the difference to within one second |
| `Countdown.DecomposeMatchesSource` | agent-arena/frontend/src/pages/Season.jsx:49-52 | each field equals the source's floating-point expression for the same positive difference |
| `Countdown.JsUnitAgrees` | agent-arena/frontend/src/components/Layout.jsx:52-53 | `Math.floor((diff / unit) % wrap)` equals `(diff div unit) mod wrap` for every `diff >= 0` |
| `Countdown.JsFloorDivAgrees` | agent-arena/frontend/src/components/Layout.jsx:51 | `Math.floor(diff / unit)` is integer floor division |
| `Countdown.JsUnitNegativeAfterEnd` | agent-arena/frontend/src/components/Layout.jsx:49-50 | one millisecond past the end the unguarded expression gives -1 hours, so the `diff <= 0` guard is what prevents negative units |
| `Countdown.DecomposeUnique` | agent-arena/frontend/src/pages/Season.jsx:48-53 | a reading in range is recovered from any difference it accounts for (the decomposition is unique, a round trip) |
| `Countdown.SecondsTickDown` | agent-arena/frontend/src/pages/Season.jsx:52 | one second later the seconds field is one lower and every other field is the same |
| `Decimal.NatToString` | agent-arena/frontend/src/components/Layout.jsx:54 | a number prints as a non-empty string of digits without a leading zero |
| `Decimal.NatToStringRoundTrip` | agent-arena/frontend/src/components/Layout.jsx:54 | the numerals in the banner read back as the numbers rendered |
| `Decimal.NatToStringInjective` | agent-arena/frontend/src/components/Layout.jsx:54 | different numbers print differently |
| `Decimal.IntToString` | agent-arena/backend/worker/main.py:74 | a negative number prints with a leading minus sign, and only a negative one does |
| `Decimal.IntToStringInjective` | agent-arena/backend/worker/main.py:74 | different damages print differently in the log line |
| `Shell.RemainingUnits` | agent-arena/frontend/src/components/Layout.jsx:47-53 | nothing without a season, an end time or time left; otherwise days ≥ 0, hours in [0,24), minutes in [0,60), and the units cover the difference to within a minute |
| `Shell.RenderInjective` | agent-arena/frontend/src/components/Layout.jsx:54 | the banner text determines the days, hours and minutes it shows, so different units never render alike |
| `Shell.TimeRemaining` | agent-arena/frontend/src/components/Layout.jsx:47-55 | a text exactly when the season is running, and that text renders those units |
| `Shell.BannerShown` | agent-arena/frontend/src/components/Layout.jsx:74 | the banner is shown iff a season is held with an end time after now |
| `Shell.BannerExample` | agent-arena/frontend/src/components/Layout.jsx:51-54 | 2 days 3 hours 4 minutes (plus under a minute) before the end the banner reads `2D : 3H : 4M` |
| `Shell.Step` | agent-arena/frontend/src/components/Layout.jsx:19-45 | a route change reads season then stamina and swaps the listener; the same route re-runs nothing; a thrown read keeps the snapshot; a response replaces only its snapshot; a signal re-reads stamina once per registered listener |
| `Shell.RunKeepsOneListener` | agent-arena/frontend/src/components/Layout.jsx:19-25 | over any event sequence at most one `stamina-update` listener is registered, and one exactly while mounted |
| `Shell.FromInitial` | agent-arena/frontend/src/components/Layout.jsx:16-25 | from the initial state (no snapshots, nothing registered), over any event sequence at most one listener is registered, and one exactly while mounted |
| `Shell.SignalFetchesOnce` | agent-arena/frontend/src/components/Layout.jsx:23 | while mounted a `stamina-update` causes exactly one stamina read; with no listener, none |
| `Shell.LastStaminaReplyWins` | agent-arena/frontend/src/components/Layout.jsx:37-45 | overlapping stamina reads are not sequenced: the reply processed last decides the snapshot |
| `SeasonPage.UpdateTimer` | agent-arena/frontend/src/pages/Season.jsx:41-56 | while the season runs the reading is in range and matches the remaining time; otherwise the previous reading stays |
| `SeasonPage.Step` | agent-arena/frontend/src/pages/Season.jsx:15-39 | loading ends on every reply; a thrown read keeps the data; a missing leaderboard becomes empty; an interval exists iff the season has an end time; a tick of a live interval sets the reading to `UpdateTimer`'s countdown and changes nothing else; unmount clears the interval |
| `SeasonPage.RunNeverLeaks` | agent-arena/frontend/src/pages/Season.jsx:15-20 | over any event sequence at most one interval is live, and none after unmount |
| `SeasonPage.UnmountIsFinal` | agent-arena/frontend/src/pages/Season.jsx:15-20 | after unmount, later events create no interval and change no data |
| `SeasonPage.FromMount` | agent-arena/frontend/src/pages/Season.jsx:9-20 | the reading starts at all zeros and from mount on at most one interval is live |
| `SeasonPage.Displayed` | agent-arena/frontend/src/pages/Season.jsx:111-117 | at most ten rows, a prefix of the leaderboard, and exactly `min(10, n)` once loaded |
| `Seqs.Filter` | agent-arena/frontend/src/pages/Battle.jsx:98 | `filter` keeps exactly the elements satisfying the predicate, with their multiplicities |
| `Seqs.FilterConcat` | agent-arena/frontend/src/pages/Market.jsx:157 | filtering distributes over concatenation, so the kept elements keep their order |
| `Seqs.Map` | agent-arena/backend/worker/main.py:127-148 | every element transformed, in order, nothing added or dropped |
| `Seqs.Take` | agent-arena/frontend/src/pages/Community.jsx:47 | `slice(0, n)` is the prefix of length `min(n, len)` |
| `Seqs.Includes` | agent-arena/frontend/src/pages/Market.jsx:118 | `s.includes(t)` iff `t` occurs in `s` at some index |
| `BattlePage.Fetched` | agent-arena/frontend/src/pages/Battle.jsx:15-28 | loading ends on every outcome; a thrown read keeps list and selection; a missing list becomes empty; a non-empty list selects its first battle, an empty one keeps the selection |
| `BattlePage.Visible` | agent-arena/frontend/src/pages/Battle.jsx:98 | `all` shows every battle; `live` shows exactly the in-progress ones |
| `BattlePage.VisibleKeepsOrder` | agent-arena/frontend/src/pages/Battle.jsx:98 | the filtered view keeps the original order |
| `BattlePage.StartBattle` | agent-arena/frontend/src/pages/Battle.jsx:30-69 | every attempt starts with the create request for the fixed agents and chosen mode; strategies are posted iff the create was ok; a rejected create yields only the detail alert; a thrown create yields only `Failed to start battle`; an accepted one continues with `SubmitStrategies` on `StrategyUrl` of the returned id; the shell is signalled iff both strategy requests completed, and the list is re-read iff it is signalled; otherwise the trace ends in an alert |
| `BattlePage.AfterCreate` | agent-arena/frontend/src/pages/Battle.jsx:41-53 | what follows the create request in each of its three outcomes: the detail alert, the generic alert, or the strategy stage |
| `BattlePage.SubmitStrategies` | agent-arena/frontend/src/pages/Battle.jsx:44-69 | strategy A is posted first; a throw of the first request ends the trace after it with the generic alert, a throw of the second after both posts; when both complete, the stamina signal and the re-read follow, and only then |
| `BattlePage.StartBattleCompletes` | agent-arena/frontend/src/pages/Battle.jsx:43-69 | the whole trace of a battle that starts: create, strategy A, strategy B (both to the interpolated URL of the returned id), signal, re-read |
| `BattlePage.StrategyUrl` | agent-arena/frontend/src/pages/Battle.jsx:63 | the URL is the battle prefix, the id as template interpolation prints it (`undefined` when missing, `null` when null, the text itself otherwise, the empty text included), and `/strategy` |
| `BattlePage.StrategyUrlInjective` | agent-arena/frontend/src/pages/Battle.jsx:63 | distinct ids from the server give distinct strategy URLs |
| `BattlePage.StrategyUrlOddIds` | agent-arena/frontend/src/pages/Battle.jsx:44-63 | an empty id leaves an empty path segment; a `null` or missing id addresses the battle named `null` or `undefined` |
| `BattlePage.RejectedStrategiesStillSignal` | agent-arena/frontend/src/pages/Battle.jsx:62-68 | rejected strategy submissions still lead to the dispatch and the re-read |
| `MarketPage.Fetched` | agent-arena/frontend/src/pages/Market.jsx:17-34 | missing shop items or proposals become empty lists; a thrown read keeps both; loading ends |
| `MarketPage.VisibleItems` | agent-arena/frontend/src/pages/Market.jsx:118 | an item is shown iff the filter is `all`, its category equals the filter, or its id contains the filter text |
| `MarketPage.VisibleItemsKeepsOrder` | agent-arena/frontend/src/pages/Market.jsx:118 | the filtered view keeps the list's order and repeats: filtering two lists one after the other gives the two filtered views one after the other |
| `MarketPage.DisplayedProposals` | agent-arena/frontend/src/pages/Market.jsx:154-157 | the first at most three pending proposals, in order; none when the field is not an array |
| `MarketPage.Purchase` | agent-arena/frontend/src/pages/Market.jsx:36-61 | the flag marks the item first and is cleared last; dispatch iff ok; ok gives the alert `✅ ` with the server's message or `Purchase successful!`, the dispatch and the re-read; a rejection gives only `❌ ` with the detail or `Purchase failed`; a throw only `❌ Failed to purchase item` |
| `MarketPage.Vote` | agent-arena/frontend/src/pages/Market.jsx:63-87 | never dispatches; ok gives the `Vote recorded` alert naming the choice and a re-read; a rejection gives only `❌ ` with the detail or `Vote failed`; a throw only `❌ Failed to vote`; the flag is set first and cleared last |
| `MarketPage.FlagsAlwaysCleared` | agent-arena/frontend/src/pages/Market.jsx:58-85 | after any purchase or vote the pending flag is `null` |
| `CommunityPage.FetchUrl` | agent-arena/frontend/src/pages/Community.jsx:21-23 | every feed URL starts with the posts URL, and it is the bare posts URL iff the category is `all` |
| `CommunityPage.FetchUrlRoundTrip` | agent-arena/frontend/src/pages/Community.jsx:21-23 | the category is recovered from the feed URL, so different categories read different URLs |
| `CommunityPage.MountReadsWholeFeed` | agent-arena/frontend/src/pages/Community.jsx:7-23 | the first fetch, from the initial state, reads the bare feed URL and sets loading |
| `CommunityPage.PostsArrived` | agent-arena/frontend/src/pages/Community.jsx:18-32 | a missing list becomes empty; a thrown read keeps the feed; loading ends |
| `CommunityPage.ChangeCategory` | agent-arena/frontend/src/pages/Community.jsx:14-16 | a different category re-reads that category's URL; the same one does nothing |
| `CommunityPage.LeadingSpaces` | agent-arena/frontend/src/pages/Community.jsx:35 | counts the white space `s` starts with: all of it is white space, and the next character is not |
| `CommunityPage.TrailingSpaces` | agent-arena/frontend/src/pages/Community.jsx:35 | counts the white space `s` ends with: all of it is white space, and the character before it is not |
| `CommunityPage.TrimStart` | agent-arena/frontend/src/pages/Community.jsx:35 | only leading white space is removed, the result starts with a non-space, and it is empty iff the text is all white space |
| `CommunityPage.TrimEnd` | agent-arena/frontend/src/pages/Community.jsx:35 | only trailing white space is removed, the result ends with a non-space, and it is empty iff the text is all white space |
| `CommunityPage.Trim` | agent-arena/frontend/src/pages/Community.jsx:35 | the trimmed text is empty iff the text is empty or white space only |
| `CommunityPage.TrimInfix` | agent-arena/frontend/src/pages/Community.jsx:35 | `trim` keeps the text between the leading and the trailing white space, and a non-empty result begins and ends with a non-space |
| `CommunityPage.BlankIffAllWhitespace` | agent-arena/frontend/src/pages/Community.jsx:35-38 | the trimmed text is empty iff the content is empty or white space only |
| `CommunityPage.PostCategory` | agent-arena/frontend/src/pages/Community.jsx:49 | a post is never filed under `all`, and any other category is kept |
| `CommunityPage.PostRequest` | agent-arena/frontend/src/pages/Community.jsx:42-50 | the title is the first `min(50, n)` characters of the content, and `all` is filed as a real category |
| `CommunityPage.SubmitPost` | agent-arena/frontend/src/pages/Community.jsx:34-65 | blank text only alerts, with no request; otherwise posting is set first and cleared last; ok clears the input and re-reads the feed; a failed post keeps the state, clears the flag and only alerts: `❌ Failed to create post` when the request throws, `❌ ` with the detail or `Failed to post` when it is rejected |
| `CommunityPage.React` | agent-arena/frontend/src/pages/Community.jsx:67-83 | one react request; the feed is re-read iff ok; no local count changes; no dispatch |
| `Worker.Hit` | agent-arena/backend/worker/main.py:80-83 | `max(0, hp - damage)`: exactly `hp - damage` when that is not negative and zero when it is; never above the old HP for non-negative damage |
| `Worker.DamageOf` | agent-arena/backend/worker/main.py:71 | `result.get("damage", 10)`: 10 when the member is missing, the value when present, and no number when it is `null` |
| `Worker.Judge` | agent-arena/backend/worker/main.py:31-94 | an update iff the lookup answered 200, the judge answered, and its damage is not `null` (subtracting `None` raises and the action is skipped); only the opponent of the acting agent is hit (damage 10 when missing); the turn advances by one; the log line is `LogLine` of the acting agent, the keyword, the judge's description and the damage |
| `Worker.LogLine` | agent-arena/backend/worker/main.py:71-74 | the line is the attacker's label and ` used `, then the keyword and the description as `str(.get(k, default))` prints them (a `null` prints `None`), then ` (DMG: <damage>)` |
| `Worker.LogLineShowsDamage` | agent-arena/backend/worker/main.py:74 | two log lines that differ only in the damage differ, so the damage can be read back from the line |
| `Worker.ProcessBatch` | agent-arena/backend/worker/main.py:21-31 | an empty batch posts nothing; every posted update is the judgement of one of the actions |
| `Worker.ProcessBatchConcat` | agent-arena/backend/worker/main.py:31-97 | actions are processed independently and in order |
| `Worker.ProcessBatchSingle` | agent-arena/backend/worker/main.py:31-97 | a single action posts its judgement if it has one, and nothing otherwise |
| `Worker.ProcessBatchComplete` | agent-arena/backend/worker/main.py:21-97 | every action the lookup and the judge answered has its update posted; with `ProcessBatch`'s own contract, the posted updates are exactly the judgements that exist |
| `Worker.SkippedLookup` | agent-arena/backend/worker/main.py:34-35 | an action whose lookup was not 200 changes nothing in the batch's output |
| `Worker.AutoActor` | agent-arena/backend/worker/main.py:129-132 | odd turns pick the first agent, even turns the second |
| `Worker.AutoActions` | agent-arena/backend/worker/main.py:127-148 | one automatic action per QUICK match, in the matches' order, each the `AutoAction` of its match |
| `Worker.AutoAction` | agent-arena/backend/worker/main.py:129-147 | the action for one match is by the agent due to act, with keyword `Auto-Attack` and a narrative from the four templates |
| `Worker.QuickActionsExist` | agent-arena/backend/worker/main.py:127-148 | some automatic action is made iff some active match is QUICK |
| `Worker.TickActions` | agent-arena/backend/worker/main.py:115-152 | the tick raises, processing nothing, iff a backend read raises or a QUICK match's action is appended to a `null` queue; a `null` queue otherwise processes nothing; a present queue comes first; a missing one and non-200 reads contribute nothing; with both reads answered the actions are exactly the popped ones followed by every automatic one |
| `Worker.NullQueueLosesTick` | agent-arena/backend/worker/main.py:118-148 | `{"actions": null}` next to a QUICK match makes the tick raise and process nothing |
| `PocSimulator.Simulate` | agent-arena/backend/poc_simulator.py:167-199 | HP stays non-negative, the history only grows, and at most one answer is applied per remaining turn |
| `PocSimulator.SimulateReplays` | agent-arena/backend/poc_simulator.py:180-199 | HP is exactly what the recorded answers produce; a failed judge call applies nothing; no answer is applied after a knock-out |
| `PocSimulator.AppendAlive` | agent-arena/backend/poc_simulator.py:180-186 | recording an answer applied to two standing agents keeps the history replayable, with no answer after a knock-out |
| `PocSimulator.WholeRun` | agent-arena/backend/poc_simulator.py:162-199 | from 100/100: HP never negative, at most five answers applied, HP replayable from the history, nothing applied after a knock-out; the history is a prefix of the judge's answers, all of them unless someone is knocked out |
| `PocSimulator.SimulateRecordsAnswers` | agent-arena/backend/poc_simulator.py:176-199 | the history is a prefix of the judge's answers in turn order, failed calls left out: nothing invented, skipped or reordered |
| `PocSimulator.SimulateRecordsAllAnswers` | agent-arena/backend/poc_simulator.py:176-199 | a match ending with both agents standing recorded every answer the judge gave |
| `PocSimulator.RunSimulation` | agent-arena/backend/poc_simulator.py:167-201 | the loop with its break computes the recursive definition; HP non-negative; history at most five |
| `PocSimulator.Winner` | agent-arena/backend/poc_simulator.py:211-215 | the first agent wins iff its HP is strictly higher, the second likewise, and `Draw` iff the HPs are equal |
| `PocSimulator.GenerateMockAction` | agent-arena/backend/poc_simulator.py:60-78 | type is ATTACK iff the roll exceeds 0.3, otherwise DEFEND; intensity in [1,10] |
| `PocSimulator.EveryIntensityReachable` | agent-arena/backend/poc_simulator.py:77 | every intensity from 1 to 10 can be drawn |

## Left out

- Rendering, CSS, the routing table (`App.jsx`) and the Tailwind configuration: they are presentation and have no behaviour to state.
- `Dashboard.jsx`: it only displays slices, the same top-N pattern as the season leaderboard.
- Real HTTP, OpenAI/GLM calls, prompt text and JSON parsing. Replies are inputs, and a raised parse is `Threw` (client) or an absent judgement (worker).
- Date parsing: `end_time` is given as milliseconds. An unparsable date, which would make the source print `NaN` units, is not modelled.
- Floating point: the countdown's division is modelled exactly on reals, without rounding. The stamina bar percentage, token cost and latency averages are left out.
- Timing: `setInterval` cadence, `asyncio.sleep` and the tick-sleep computation. Time is an input and a timer firing is an event.
- Concurrency: overlapping fetches are separate reply events in an arbitrary order. Each mutation flow is one sequential trace, and a page re-read is recorded as the requests it issues.
- React rules: state updates after the season page unmounts are dropped, as React does. The season timer effect re-runs on every answered read, which has the same effect on live intervals as React's identity-based re-run.
- `window.dispatchEvent` runs the shell's listener synchronously. A page's trace records the `Dispatch`, and the shell's reaction is its own `StaminaSignal` step.
- `CommunityPage.PostRequest`: the title counts Unicode characters, but JavaScript's `slice` counts UTF-16 code units. The two agree for text in the Basic Multilingual Plane.
- Random template, word and item choice: the worker's narrative is any template a given choice function picks. The simulator's narrative text is not modelled. The intensity draw is `1 + draw mod 10` for an arbitrary `draw`.
- Worker: a present `damage` is assumed to be an integer (a `null` one is modelled). A non-numeric value would raise in the source and skip the action. The log line is built but printed messages are not modelled.
- Worker: `ProcessBatch` takes each action paired with the replies the backend and the judge gave while it was processed. The backend's own bookkeeping of the posted update is not part of this model.
- PocSimulator: a judge answer missing `damage_to_a`, `damage_to_b` or `summary` raises a `KeyError` that aborts the whole run with no winner (`meta` is always set by `call_judge`). For a missing `summary` the HP of that turn has already been lowered, but the answer is not yet in the history. The model assumes these members are present.
- `demo_agent.py`, `debug_server.py` and `check_stamina_local.py` are scripts over modules that are not part of this model.

=== FILE: battle_page.dfy ===
/** The battle arena page (pages/Battle.jsx): the battle list with its
    selection and all/live filter, and the start-battle flow that creates a
    battle, submits both strategies in order, signals the shell and
    re-reads the list. */
module BattlePage {

  import opened Common
  import opened Effects
  import Seqs

  const BattlesUrl: string := "/api/v1/battles"
  const StartUrl: string := "/api/v2/battle/start"

  /** The fixed strategies submitted for the two demo agents, in order. */
  const StrategyA: string := "Attack aggressively with all items."
  const StrategyB: string := "Defend and counter-attack."

  datatype Battle = Battle(id: string, agentA: string, agentB: string, status: string, arena: string, winner: Option<string>)

  /** Body of `GET /api/v1/battles`. */
  datatype BattlesBody = BattlesBody(battles: Option<seq<Battle>>)

  datatype Filter = All | Live

  datatype Mode = Practice | Ranked

  function ModeName(m: Mode): string {
    match m
    case Practice => "practice"
    case Ranked => "ranked"
  }

  /** The page's own state; there is no pending-action flag. */
  datatype PageState = PageState(battles: seq<Battle>, selected: Option<Battle>, loading: bool, filter: Filter)

  /** `fetchBattles` once its reply is in: a non-empty list selects its
      first battle, an empty or missing one leaves the selection alone, and
      a thrown read leaves the list alone. */
  function Fetched(s: PageState, reply: Reply<BattlesBody>): (r: PageState)
    ensures !r.loading && r.filter == s.filter
    ensures reply.Threw? ==> r.battles == s.battles && r.selected == s.selected
    ensures reply.Responded? ==>
              r.battles == (if reply.body.battles.Some? then reply.body.battles.value else [])
    ensures reply.Responded? && |r.battles| > 0 ==> r.selected == Some(r.battles[0])
    ensures reply.Responded? && |r.battles| == 0 ==> r.selected == s.selected
  {
    match reply
    case Threw => s.(loading := false)
    case Responded(_, body) =>
      var list := body.battles.GetOr([]);
      var selected := if |list| > 0 then Some(list[0]) else s.selected;
      s.(battles := list, selected := selected, loading := false)
  }

  /** The sidebar predicate: every battle under `All`, in-progress ones
      under `Live`. */
  function Shown(f: Filter): Battle -> bool {
    (b: Battle) => f == All || b.status == "in_progress"
  }

  function Visible(battles: seq<Battle>, f: Filter): (r: seq<Battle>)
    ensures f == All ==> r == battles
    ensures f == Live ==> forall b :: b in r <==> b in battles && b.status == "in_progress"
    ensures |r| <= |battles|
  {
    var r := Seqs.Filter(battles, Shown(f));
    assert f == All ==> r == battles by {
      if f == All {
        Seqs.FilterKeepsAll(battles, Shown(f));
      }
    }
    r
  }

  /** The live view of two lists shown one after the other is the two live
      views one after the other: order is kept. */
  lemma VisibleKeepsOrder(a: seq<Battle>, b: seq<Battle>, f: Filter)
    ensures Visible(a + b, f) == Visible(a, f) + Visible(b, f)
  {
    Seqs.FilterConcat(a, b, Shown(f));
  }

  /** Body of `POST /api/v2/battle/start`. */
  datatype StartReply = StartReply(battleId: Field<string>, detail: Option<string>)

  const BattlePrefix: string := "/api/v2/battle/"
  const StrategySuffix: string := "/strategy"

  /** The strategy URL with the create reply's id interpolated as it is:
      a missing id reads `undefined`, a `null` one `null`, and an empty one
      leaves an empty path segment. */
  function StrategyUrl(battleId: Field<string>): (url: string)
    ensures |url| == |BattlePrefix| + |Interpolate(battleId)| + |StrategySuffix|
    ensures url[..|BattlePrefix|] == BattlePrefix
    ensures url[|url| - |StrategySuffix|..] == StrategySuffix
    ensures url[|BattlePrefix|..|url| - |StrategySuffix|] == Interpolate(battleId)
  {
    BattlePrefix + Interpolate(battleId) + StrategySuffix
  }

  /** Distinct ids the server returned address distinct battles. */
  lemma StrategyUrlInjective(a: string, b: string)
    requires StrategyUrl(Present(a)) == StrategyUrl(Present(b))
    ensures a == b
  {
  }

  /** The odd ids: an empty id leaves an empty path segment, and a `null`
      or missing one addresses the battle literally named `null` or
      `undefined`. */
  lemma StrategyUrlOddIds()
    ensures StrategyUrl(Present("")) == BattlePrefix + StrategySuffix
    ensures StrategyUrl(Null) == StrategyUrl(Present("null"))
    ensures StrategyUrl(Missing) == StrategyUrl(Present("undefined"))
  {
  }

  /** The create request every attempt begins with. */
  function CreateRequest(mode: Mode): Effect {
    Post(StartUrl, StartBattleBody(DemoAgent1, DemoAgent2, ModeName(mode)))
  }

  predicate IsStrategyPost(e: Effect) {
    e.Post? && e.body.StrategyBody?
  }

  /** The alert shown when a request of `startBattle` throws. */
  const StartFailed: string := "Failed to start battle"

  /** What follows an accepted create: both strategies in order, then the
      stamina signal and a re-read of the list; a thrown request ends the
      flow with the generic alert. */
  function SubmitStrategies(url: string, first: Reply<()>, second: Reply<()>): (tail: seq<Effect>)
    ensures |tail| >= 2 && tail[0] == Post(url, StrategyBody(DemoAgent1, StrategyA))
    ensures Count(tail, IsDispatch) > 0 <==> first.Responded? && second.Responded?
    ensures Get(BattlesUrl) in tail <==> first.Responded? && second.Responded?
    ensures first.Threw? ==> tail == [Post(url, StrategyBody(DemoAgent1, StrategyA)), Alert(StartFailed)]
    ensures first.Responded? && second.Threw? ==>
              tail == [Post(url, StrategyBody(DemoAgent1, StrategyA)),
                       Post(url, StrategyBody(DemoAgent2, StrategyB)),
                       Alert(StartFailed)]
    ensures first.Responded? && second.Responded? ==>
              tail == [Post(url, StrategyBody(DemoAgent1, StrategyA)),
                       Post(url, StrategyBody(DemoAgent2, StrategyB)),
                       Dispatch(StaminaUpdate),
                       Get(BattlesUrl)]
  {
    var postA := Post(url, StrategyBody(DemoAgent1, StrategyA));
    var postB := Post(url, StrategyBody(DemoAgent2, StrategyB));
    if first.Threw? then [postA, Alert(StartFailed)]
    else if second.Threw? then [postA, postB, Alert(StartFailed)]
    else
      var done := [postA, postB, Dispatch(StaminaUpdate), Get(BattlesUrl)];
      assert IsDispatch(done[2]);
      done
  }

  /** What follows the create request: the server's detail on a rejected
      create, the generic alert on a thrown one, the strategy stage on an
      accepted one. */
  function AfterCreate(create: Reply<StartReply>, first: Reply<()>, second: Reply<()>): (tail: seq<Effect>)
    ensures |tail| >= 1
    ensures Count(tail, IsStrategyPost) > 0 <==> create.Responded? && create.ok
    ensures create.Threw? ==> tail == [Alert(StartFailed)]
    ensures create.Responded? && !create.ok ==>
              tail == [Alert("Cannot start battle: " + OrElse(create.body.detail, "Unknown error"))]
    ensures create.Responded? && create.ok ==>
              tail == SubmitStrategies(StrategyUrl(create.body.battleId), first, second)
    ensures Count(tail, IsDispatch) > 0 <==> create.Responded? && create.ok && first.Responded? && second.Responded?
    ensures Get(BattlesUrl) in tail <==> Count(tail, IsDispatch) > 0
    ensures Count(tail, IsDispatch) == 0 ==> tail[|tail| - 1].Alert?
  {
    match create
    case Threw => [Alert(StartFailed)]
    case Responded(ok, body) =>
      if !ok then [Alert("Cannot start battle: " + OrElse(body.detail, "Unknown error"))]
      else
        var tail := SubmitStrategies(StrategyUrl(body.battleId), first, second);
        assert IsStrategyPost(tail[0]);
        tail
  }

  /** `startBattle(mode)` given the create reply and the two strategy
      replies (used only if reached). */
  function StartBattle(mode: Mode, create: Reply<StartReply>, first: Reply<()>, second: Reply<()>): (trace: seq<Effect>)
    ensures |trace| >= 2 && trace[0] == CreateRequest(mode)
    // strategies are submitted only for a battle the server accepted
    ensures Count(trace, IsStrategyPost) > 0 <==> create.Responded? && create.ok
    // a rejected create surfaces the server's detail and does nothing else
    ensures create.Responded? && !create.ok ==>
              trace == [CreateRequest(mode), Alert("Cannot start battle: " + OrElse(create.body.detail, "Unknown error"))]
    // a thrown create stops the flow at once with the generic alert
    ensures create.Threw? ==> trace == [CreateRequest(mode), Alert(StartFailed)]
    // an accepted create continues with the strategy stage on its battle's URL
    ensures create.Responded? && create.ok ==>
              trace == [CreateRequest(mode)] + SubmitStrategies(StrategyUrl(create.body.battleId), first, second)
    // stamina is signalled, and the list re-read, iff both strategy requests completed
    ensures Count(trace, IsDispatch) > 0 <==>
              create.Responded? && create.ok && first.Responded? && second.Responded?
    ensures Get(BattlesUrl) in trace <==> Count(trace, IsDispatch) > 0
    // whenever it does not complete, the last effect is an alert
    ensures Count(trace, IsDispatch) == 0 ==> trace[|trace| - 1].Alert?
  {
    var tail := AfterCreate(create, first, second);
    var trace := [CreateRequest(mode)] + tail;
    assert trace[1..] == tail;
    trace
  }

  /** The whole trace of a battle that starts: the create, both strategies
      in order on its URL, the stamina signal and the re-read. */
  lemma StartBattleCompletes(mode: Mode, create: Reply<StartReply>, first: Reply<()>, second: Reply<()>)
    requires Count(StartBattle(mode, create, first, second), IsDispatch) > 0
    ensures var url := StrategyUrl(create.body.battleId);
            StartBattle(mode, create, first, second)
              == [CreateRequest(mode),
                  Post(url, StrategyBody(DemoAgent1, StrategyA)),
                  Post(url, StrategyBody(DemoAgent2, StrategyB)),
                  Dispatch(StaminaUpdate),
                  Get(BattlesUrl)]
  {
  }

  /** The strategy replies' status is never read: two rejected strategy
      submissions still lead to the signal and the re-read. */
  lemma RejectedStrategiesStillSignal(mode: Mode, body: StartReply)
    ensures var trace := StartBattle(mode, Responded(true, body), Responded(false, ()), Responded(false, ()));
            Dispatch(StaminaUpdate) in trace && Get(BattlesUrl) in trace
  {
  }
}

=== FILE: common.dfy ===
/** Shared vocabulary of the client and the backend scripts: optional JSON
    fields, the outcome of one awaited request, and JavaScript's `||`
    defaulting of string fields. */
module Common {

  /** A JSON field that may be absent (`undefined`/`null` in JavaScript,
      `None` in Python). */
  datatype Option<+T> = None | Some(value: T) {

    /** The value, or `default` when absent (`x || default` for lists). */
    function GetOr(default: T): T {
      match this
      case Some(v) => v
      case None => default
    }
  }

  /** A member of a parsed JSON object where the code tells the cases
      apart: the key is missing, present as `null`, or present with a value.
      JavaScript interpolates the first two as `undefined` and `null`;
      Python's `.get(key, default)` yields `default` only for a missing key
      and `None` for a present `null`. */
  datatype Field<+T> = Missing | Null | Present(value: T)

  /** JavaScript's template interpolation `${f}` of a string member. */
  function Interpolate(f: Field<string>): (s: string)
    ensures f.Present? ==> s == f.value
    ensures f.Missing? ==> s == "undefined"
    ensures f.Null? ==> s == "null"
  {
    match f
    case Missing => "undefined"
    case Null => "null"
    case Present(v) => v
  }

  /** `str(d.get(key, default))` in Python for a string member. */
  function PyGetStr(f: Field<string>, default: string): (s: string)
    ensures f.Present? ==> s == f.value
    ensures f.Missing? ==> s == default
    ensures f.Null? ==> s == "None"
  {
    match f
    case Missing => default
    case Null => "None"
    case Present(v) => v
  }

  /** The outcome of one `await fetch(...)` followed by `await res.json()`:
      either one of them threw (transport failure, unparsable body), or the
      server answered, `ok` being `res.ok`, with a parsed body. */
  datatype Reply<+B> = Threw | Responded(ok: bool, body: B)

  /** JavaScript `s || fallback` for a string field: `undefined`, `null`
      and the empty string are all falsy. */
  function OrElse(s: Option<string>, fallback: string): string {
    if s.Some? && s.value != "" then s.value else fallback
  }

  function Min(a: int, b: int): int {
    if a <= b then a else b
  }

  function Max(a: int, b: int): int {
    if a >= b then a else b
  }
}

=== FILE: community_page.dfy ===
/** The community page (pages/Community.jsx): the post feed read per
    category, post creation with local validation, and reactions. */
module CommunityPage {

  import opened Common
  import opened Effects
  import Seqs

  const PostsUrl: string := "/api/v2/posts"
  const CategoryQuery: string := "?category="

  /** Titles are the first this-many characters of the content. */
  const TitleLength: nat := 50

  datatype Reactions = Reactions(like: Option<int>, fire: Option<int>)

  datatype FeedPost = FeedPost(id: string, authorId: string, title: string, content: string,
                               category: string, reactions: Reactions)

  /** Body of `GET /api/v2/posts`. */
  datatype PostsBody = PostsBody(posts: Option<seq<FeedPost>>)

  datatype PageState = PageState(posts: seq<FeedPost>, category: string, loading: bool, input: string, posting: bool)

  /** The state `useState` starts from: the whole feed, still loading. */
  const Initial: PageState := PageState([], "all", true, "", false)

  /** The feed URL: no query for `all`, a category query otherwise. */
  function FetchUrl(category: string): (url: string)
    ensures PostsUrl <= url
    ensures url == PostsUrl <==> category == "all"
  {
    if category == "all" then PostsUrl else PostsUrl + CategoryQuery + category
  }

  /** The category a feed URL asks for, read back off the URL. */
  function CategoryOfUrl(url: string): Option<string> {
    if url == PostsUrl then Some("all")
    else
      var prefix := PostsUrl + CategoryQuery;
      if |prefix| <= |url| && url[..|prefix|] == prefix then Some(url[|prefix|..]) else None
  }

  /** Every category is recovered from its URL, so different categories
      read different URLs. */
  lemma FetchUrlRoundTrip(category: string)
    ensures CategoryOfUrl(FetchUrl(category)) == Some(category)
  {
    if category != "all" {
      var prefix := PostsUrl + CategoryQuery;
      var url := FetchUrl(category);
      assert url == prefix + category;
      assert url[..|prefix|] == prefix;
      assert url[|prefix|..] == category;
    }
  }

  /** `fetchPosts` issued: loading starts, the current category's URL is read. */
  function StartFetch(s: PageState): (PageState, seq<Effect>) {
    (s.(loading := true), [Get(FetchUrl(s.category))])
  }

  /** The fetch on mount reads the whole feed. */
  lemma MountReadsWholeFeed()
    ensures StartFetch(Initial).0.loading && StartFetch(Initial).1 == [Get(PostsUrl)]
  {
  }

  /** `fetchPosts` once its reply is in: a missing list becomes empty, a
      thrown read keeps the feed. */
  function PostsArrived(s: PageState, reply: Reply<PostsBody>): (r: PageState)
    ensures !r.loading && r.category == s.category && r.input == s.input && r.posting == s.posting
    ensures reply.Threw? ==> r.posts == s.posts
    ensures reply.Responded? ==>
              r.posts == (if reply.body.posts.Some? then reply.body.posts.value else [])
  {
    match reply
    case Threw => s.(loading := false)
    case Responded(_, body) => s.(posts := body.posts.GetOr([]), loading := false)
  }

  /** A category tab clicked: only a different category re-runs the feed
      effect, which reads that category's URL. */
  function ChangeCategory(s: PageState, category: string): (r: (PageState, seq<Effect>))
    ensures r.0.category == category && r.0.posts == s.posts
    ensures category != s.category ==> r.1 == [Get(FetchUrl(category))] && r.0.loading
    ensures category == s.category ==> r == (s, [])
  {
    if category == s.category then (s, []) else StartFetch(s.(category := category))
  }

  // ---------------------------------------------------------------------
  // `String.prototype.trim`
  // ---------------------------------------------------------------------

  /** The characters `trim` removes: ECMAScript white space (tab, vertical
      tab, form feed, space, no-break space, the Unicode space separators
      and the byte order mark) and line terminators (line feed, carriage
      return, line and paragraph separators). */
  predicate IsSpace(c: char) {
    || '\t' <= c <= '\r' || c == ' ' || c == '\U{00A0}' || c == '\U{1680}'
    || '\U{2000}' <= c <= '\U{200A}' || c == '\U{2028}' || c == '\U{2029}'
    || c == '\U{202F}' || c == '\U{205F}' || c == '\U{3000}' || c == '\U{FEFF}'
  }

  predicate AllWhitespace(s: string) {
    forall i :: 0 <= i < |s| ==> IsSpace(s[i])
  }

  /** The number of white-space characters `s` starts with. */
  function LeadingSpaces(s: string): (n: nat)
    ensures n <= |s| && AllWhitespace(s[..n])
    ensures n < |s| ==> !IsSpace(s[n])
  {
    if s != [] && IsSpace(s[0]) then
      var n := 1 + LeadingSpaces(s[1..]);
      assert AllWhitespace(s[..n]) by {
        forall i | 0 <= i < n ensures IsSpace(s[..n][i]) {
          if i > 0 {
            assert s[..n][i] == s[1..][..n - 1][i - 1];
          }
        }
      }
      n
    else 0
  }

  /** The number of white-space characters `s` ends with. */
  function TrailingSpaces(s: string): (n: nat)
    ensures n <= |s| && AllWhitespace(s[|s| - n..])
    ensures n < |s| ==> !IsSpace(s[|s| - n - 1])
  {
    if s != [] && IsSpace(s[|s| - 1]) then
      var init := s[..|s| - 1];
      var n := 1 + TrailingSpaces(init);
      var tail := s[|s| - n..];
      assert AllWhitespace(tail) by {
        forall i | 0 <= i < n ensures IsSpace(tail[i]) {
          if i < n - 1 {
            assert tail[i] == init[|init| - (n - 1)..][i];
          }
        }
      }
      n
    else 0
  }

  /** Leading white space removed. */
  function TrimStart(s: string): (r: string)
    ensures |r| <= |s| && r == s[|s| - |r|..]
    ensures AllWhitespace(s[..|s| - |r|])
    ensures r != [] ==> !IsSpace(r[0])
    ensures r == [] <==> AllWhitespace(s)
  {
    var n := LeadingSpaces(s);
    assert n == |s| ==> s[..n] == s;
    s[n..]
  }

  /** Trailing white space removed. */
  function TrimEnd(s: string): (r: string)
    ensures |r| <= |s| && r == s[..|r|]
    ensures AllWhitespace(s[|r|..])
    ensures r != [] ==> !IsSpace(r[|r| - 1])
    ensures r == [] <==> AllWhitespace(s)
  {
    var n := TrailingSpaces(s);
    assert n == |s| ==> s[|s| - n..] == s;
    s[..|s| - n]
  }

  /** `String.prototype.trim`: the text between the leading and the
      trailing white space. */
  function Trim(s: string): (r: string)
    ensures r == [] <==> AllWhitespace(s)
  {
    BlankIffAllWhitespace(s);
    TrimEnd(TrimStart(s))
  }

  /** `!content.trim()` holds exactly for empty and white-space-only text. */
  lemma BlankIffAllWhitespace(s: string)
    ensures TrimEnd(TrimStart(s)) == [] <==> AllWhitespace(s)
  {
    var t := TrimStart(s);
    if t != [] {
      assert !AllWhitespace(t) by {
        assert !IsSpace(t[0]);
      }
    }
  }

  /** What `trim` keeps is the text after the leading white space and
      before the trailing white space, and it begins and ends with a
      character that is not white space. */
  lemma TrimInfix(s: string)
    ensures var r, i := Trim(s), |s| - |TrimStart(s)|;
            && i + |r| <= |s| && r == s[i..i + |r|]
            && AllWhitespace(s[..i]) && AllWhitespace(s[i + |r|..])
            && (r != [] ==> !IsSpace(r[0]) && !IsSpace(r[|r| - 1]))
  {
  }

  // ---------------------------------------------------------------------
  // Creating a post and reacting to one
  // ---------------------------------------------------------------------

  /** Body of a rejected post. */
  datatype PostReply = PostReply(detail: Option<string>)

  /** The category a new post is filed under: `all` is not a category. */
  function PostCategory(category: string): (filed: string)
    ensures filed != "all"
    ensures category != "all" ==> filed == category
  {
    if category == "all" then "general" else category
  }

  /** The create request: the content, titled by its first fifty
      characters, filed under a real category. */
  function PostRequest(content: string, category: string): (e: Effect)
    ensures e.Post? && e.target == PostsUrl && e.body.PostBody?
    ensures e.body.authorId == DemoAgent1 && e.body.content == content
    ensures e.body.title <= content && |e.body.title| == Min(TitleLength, |content|)
    ensures e.body.category != "all" && (category != "all" ==> e.body.category == category)
  {
    Post(PostsUrl, PostBody(DemoAgent1, Seqs.Take(content, TitleLength), content, PostCategory(category)))
  }

  /** `handlePost` with the typed text in `s.input`. The blank test
      `!content.trim()` is written as `AllWhitespace`, which `Trim`'s
      contract shows to be the same condition. */
  function SubmitPost(s: PageState, reply: Reply<PostReply>): (r: (PageState, seq<Effect>))
    // blank text is refused locally, before any request
    ensures AllWhitespace(s.input) ==> r == (s, [Alert("Please enter some content")])
    ensures !AllWhitespace(s.input) ==>
              && |r.1| >= 4 && r.1[0] == SetPosting(true) && r.1[|r.1| - 1] == SetPosting(false)
              && r.1[1] == PostRequest(s.input, s.category)
              && !r.0.posting && r.0.category == s.category && r.0.posts == s.posts
    // an accepted post clears the input and re-reads the feed; otherwise the text stays
    ensures !AllWhitespace(s.input) && reply.Responded? && reply.ok ==>
              r.0.input == "" && r.1[2] == ClearInput && r.1[3] == Get(FetchUrl(s.category))
    ensures !(reply.Responded? && reply.ok) ==> r.0.input == s.input
    // a failed post only alerts: the state is kept, the flag cleared
    ensures !AllWhitespace(s.input) && !(reply.Responded? && reply.ok) ==> r.0 == s.(posting := false) && |r.1| == 4
    ensures !AllWhitespace(s.input) && reply.Threw? ==> r.1[2] == Alert("❌ Failed to create post")
    ensures !AllWhitespace(s.input) && reply.Responded? && !reply.ok ==>
              r.1[2] == Alert("❌ " + OrElse(reply.body.detail, "Failed to post"))
  {
    if AllWhitespace(s.input) then (s, [Alert("Please enter some content")])
    else
      var request := PostRequest(s.input, s.category);
      match reply
      case Threw =>
        (s.(posting := false), [SetPosting(true), request, Alert("❌ Failed to create post"), SetPosting(false)])
      case Responded(ok, body) =>
        if ok then
          var (fetching, reread) := StartFetch(s.(input := "", posting := false));
          (fetching, [SetPosting(true), request, ClearInput] + reread + [SetPosting(false)])
        else
          (s.(posting := false), [SetPosting(true), request, Alert("❌ " + OrElse(body.detail, "Failed to post")), SetPosting(false)])
  }

  datatype Reaction = Like | Fire

  function ReactionName(k: Reaction): string {
    match k
    case Like => "like"
    case Fire => "fire"
  }

  /** `handleReaction(postId, kind)`: the feed is re-read only on an ok
      status; no count is changed locally. */
  function React(s: PageState, postId: string, kind: Reaction, reply: Reply<()>): (r: (PageState, seq<Effect>))
    ensures |r.1| >= 1 && r.1[0] == Post(PostsUrl + "/" + postId + "/react", ReactBody(DemoAgent1, ReactionName(kind)))
    ensures r.0.posts == s.posts
    ensures |r.1| == 2 <==> reply.Responded? && reply.ok
    ensures |r.1| == 2 ==> r.1[1] == Get(FetchUrl(s.category))
    ensures |r.1| <= 2 && Count(r.1, IsDispatch) == 0
  {
    var request := Post(PostsUrl + "/" + postId + "/react", ReactBody(DemoAgent1, ReactionName(kind)));
    if reply.Responded? && reply.ok then
      var (fetching, reread) := StartFetch(s);
      (fetching, [request] + reread)
    else (s, [request])
  }
}

=== FILE: countdown.dfy ===
/** The remaining-time arithmetic shared by the shell banner and the season
    page: a positive millisecond difference split into days, hours, minutes
    and seconds by floor division and remainder. */
module Countdown {

  const MsPerSecond: int := 1000
  const MsPerMinute: int := 60 * MsPerSecond
  const MsPerHour: int := 60 * MsPerMinute
  const MsPerDay: int := 24 * MsPerHour

  /** A countdown reading. */
  datatype Clock = Clock(days: int, hours: int, mins: int, secs: int)

  /** The all-zero reading the season page starts from. */
  const Zero: Clock := Clock(0, 0, 0, 0)

  /** Every unit below days lies within its wrap-around range. */
  predicate InRange(c: Clock) {
    c.days >= 0 && 0 <= c.hours < 24 && 0 <= c.mins < 60 && 0 <= c.secs < 60
  }

  /** The whole seconds a reading accounts for. */
  function TotalSeconds(c: Clock): int {
    ((c.days * 24 + c.hours) * 60 + c.mins) * 60 + c.secs
  }

  /** The milliseconds a reading accounts for. */
  function Millis(c: Clock): int {
    c.days * MsPerDay + c.hours * MsPerHour + c.mins * MsPerMinute + c.secs * MsPerSecond
  }

  /** The decomposition of a positive difference: `days` by floor division
      by a day, and hours, minutes and seconds as remainders of the floored
      quotient by 24, 60 and 60. */
  function Decompose(diff: int): (c: Clock)
    requires diff > 0
    ensures InRange(c)
    ensures Millis(c) <= diff < Millis(c) + MsPerSecond
  {
    UnitsFromSeconds(diff);
    MixedRadix(diff / MsPerSecond);
    Clock(diff / MsPerDay, (diff / MsPerHour) % 24, (diff / MsPerMinute) % 60, (diff / MsPerSecond) % 60)
  }

  /** Each unit's floored quotient is a floored quotient of the whole
      seconds. */
  lemma UnitsFromSeconds(diff: int)
    requires diff >= 0
    ensures diff / MsPerMinute == diff / MsPerSecond / 60
    ensures diff / MsPerHour == diff / MsPerSecond / 3600
    ensures diff / MsPerDay == diff / MsPerSecond / 86400
  {
  }

  /** The units read off a count of whole seconds reassemble it. */
  lemma MixedRadix(s: int)
    requires s >= 0
    ensures s / 3600 == s / 60 / 60
    ensures s / 86400 == s / 3600 / 24
    ensures TotalSeconds(Clock(s / 86400, (s / 3600) % 24, (s / 60) % 60, s % 60)) == s
  {
  }

  /** A reading in range is recovered from any difference it accounts for:
      the decomposition is unique. */
  lemma DecomposeUnique(c: Clock, ms: int)
    requires InRange(c) && 0 <= ms < MsPerSecond && Millis(c) + ms > 0
    ensures Decompose(Millis(c) + ms) == c
  {
    var diff := Millis(c) + ms;
    var t := TotalSeconds(c);
    var m := (c.days * 24 + c.hours) * 60 + c.mins;
    var h := c.days * 24 + c.hours;
    assert diff == MsPerSecond * t + ms;
    DivUnique(diff, MsPerSecond, t, ms);
    assert t == 60 * m + c.secs;
    DivUnique(t, 60, m, c.secs);
    assert m == 60 * h + c.mins;
    DivUnique(m, 60, h, c.mins);
    assert h == 24 * c.days + c.hours;
    DivUnique(h, 24, c.days, c.hours);
    UnitsFromSeconds(diff);
    MixedRadix(t);
    assert diff / MsPerSecond % 60 == c.secs;
    assert diff / MsPerMinute % 60 == c.mins;
    assert diff / MsPerHour % 24 == c.hours;
    assert diff / MsPerDay == c.days;
  }

  /** A quotient and remainder within range are the ones `/` and `%` give. */
  lemma DivUnique(a: int, d: int, q: int, r: int)
    requires d > 0 && a == d * q + r && 0 <= r < d
    ensures a / d == q && a % d == r
  {
    var q' := a / d;
    var k := q - q';
    assert d * q - d * q' == d * k;
    if k > 0 {
      MulAtLeast(d, k);
    } else if k < 0 {
      MulAtLeast(d, -k);
    }
  }

  lemma {:induction false} MulAtLeast(d: int, k: int)
    requires d > 0 && k > 0
    ensures d * k >= d
  {
    if k > 1 {
      MulAtLeast(d, k - 1);
      assert d * k == d * (k - 1) + d;
    }
  }

  /** One second later the seconds field has dropped by one while it was
      positive, and nothing else changes: the active countdown ticks down. */
  lemma SecondsTickDown(diff: int)
    requires diff > MsPerSecond && Decompose(diff).secs > 0
    ensures var c := Decompose(diff);
            Decompose(diff - MsPerSecond) == c.(secs := c.secs - 1)
  {
    var c := Decompose(diff);
    var c' := c.(secs := c.secs - 1);
    assert Millis(c') == Millis(c) - MsPerSecond;
    DecomposeUnique(c', diff - Millis(c));
  }

  // ---------------------------------------------------------------------
  // The source computes each unit as `Math.floor((diff / unit) % wrap)` on
  // JavaScript numbers. Below, that expression is evaluated exactly on
  // reals (no rounding) and shown to agree with the integer decomposition
  // for every non-negative difference.
  // ---------------------------------------------------------------------

  /** `Math.trunc`. */
  function Trunc(x: real): int {
    if x >= 0.0 then x.Floor else -((-x).Floor)
  }

  /** JavaScript's `%` on numbers: the remainder has the dividend's sign. */
  function JsRem(a: real, b: real): real
    requires b != 0.0
  {
    a - b * (Trunc(a / b) as real)
  }

  /** `Math.floor((diff / unit) % wrap)`. */
  function JsUnit(diff: int, unit: int, wrap: int): int
    requires unit > 0 && wrap > 0
  {
    JsRem(diff as real / unit as real, wrap as real).Floor
  }

  /** `Math.floor(diff / unit)`. */
  function JsFloorDiv(diff: int, unit: int): int
    requires unit > 0
  {
    (diff as real / unit as real).Floor
  }

  lemma FloorOfIntPlusFraction(k: int, f: real)
    requires 0.0 <= f < 1.0
    ensures (k as real + f).Floor == k
  {
  }
  /** Real division of integers splits into the integer quotient and a
      fraction in [0, 1). */
  lemma RealQuotient(a: int, d: int)
    requires d > 0
    ensures a as real / d as real == (a / d) as real + (a % d) as real / d as real
    ensures 0.0 <= (a % d) as real / d as real < 1.0
  {
    var q := a / d;
    var r := a % d;
    var dr := d as real;
    assert a as real == dr * q as real + r as real;
    assert (dr * q as real) / dr == q as real;
    assert (r as real) / dr < 1.0 by {
      assert r as real < dr;
    }
  }
  lemma PositiveFactor(x: real, w: real)
    requires w > 0.0 && x * w > 0.0
    ensures x > 0.0
  {
  }

  /** Dividing `w * a + b` by `w` leaves `a` plus a fraction in [0, 1). */
  lemma Split(x: real, w: real, a: int, b: real)
    requires w > 0.0 && x == w * a as real + b && 0.0 <= b < w
    ensures x / w == a as real + b / w
    ensures 0.0 <= b / w < 1.0
  {
    assert (w * a as real) / w == a as real;
    var g := b / w;
    assert g * w == b;
    assert (1.0 - g) * w == w - b;
    PositiveFactor(1.0 - g, w);
  }
  lemma JsFloorDivAgrees(diff: int, unit: int)
    requires unit > 0
    ensures JsFloorDiv(diff, unit) == diff / unit
  {
    RealQuotient(diff, unit);
    FloorOfIntPlusFraction(diff / unit, (diff % unit) as real / unit as real);
  }

  /** For a non-negative difference the floating-point expression of the
      source and the integer remainder of the floored quotient agree. */
  lemma JsUnitAgrees(diff: int, unit: int, wrap: int)
    requires diff >= 0 && unit > 0 && wrap > 0
    ensures JsUnit(diff, unit, wrap) == (diff / unit) % wrap
  {
    var q := diff / unit;
    var f := (diff % unit) as real / unit as real;
    RealQuotient(diff, unit);
    var x := diff as real / unit as real;
    assert x == q as real + f;
    var a := q / wrap;
    var b := q % wrap;
    var w := wrap as real;
    assert q as real == w * a as real + b as real;
    assert b as real + f < w by { assert b <= wrap - 1; }
    Split(x, w, a, b as real + f);
    FloorOfIntPlusFraction(a, (b as real + f) / w);
    assert Trunc(x / w) == a;
    assert JsRem(x, w) == b as real + f;
    FloorOfIntPlusFraction(b, f);
  }

  /** Every field of the decomposition is what the source's floating-point
      expression yields for the same positive difference. */
  lemma DecomposeMatchesSource(diff: int)
    requires diff > 0
    ensures var c := Decompose(diff);
            && c.days == JsFloorDiv(diff, MsPerDay)
            && c.hours == JsUnit(diff, MsPerHour, 24)
            && c.mins == JsUnit(diff, MsPerMinute, 60)
            && c.secs == JsUnit(diff, MsPerSecond, 60)
  {
    JsFloorDivAgrees(diff, MsPerDay);
    JsUnitAgrees(diff, MsPerHour, 24);
    JsUnitAgrees(diff, MsPerMinute, 60);
    JsUnitAgrees(diff, MsPerSecond, 60);
  }

  /** Why the guard `diff > 0` matters: one millisecond past the end the
      source's expression would show -1 hours. */
  lemma JsUnitNegativeAfterEnd()
    ensures JsUnit(-1, MsPerHour, 24) == -1
  {
    var x := -1.0 / 3600000.0;
    assert x / 24.0 > -1.0 && x / 24.0 < 0.0;
    assert Trunc(x / 24.0) == 0;
    assert JsRem(x, 24.0) == x;
  }
}

=== FILE: decimal.dfy ===
/** Decimal rendering of integers, as JavaScript template literals
    (`${days}`) and Python f-strings (`{damage}`) print them. */
module Decimal {

  predicate IsDigit(c: char) {
    '0' <= c <= '9'
  }

  function DigitChar(d: int): (c: char)
    requires 0 <= d < 10
    ensures IsDigit(c) && DigitValue(c) == d
  {
    "0123456789"[d]
  }

  function DigitValue(c: char): int
    requires IsDigit(c)
  {
    c as int - '0' as int
  }

  predicate AllDigits(s: string) {
    forall i :: 0 <= i < |s| ==> IsDigit(s[i])
  }

  /** The canonical decimal numeral of `n`: no sign, no leading zero. */
  function NatToString(n: nat): (s: string)
    ensures |s| >= 1 && AllDigits(s)
    ensures |s| > 1 ==> s[0] != '0'
    decreases n
  {
    if n < 10 then [DigitChar(n)] else NatToString(n / 10) + [DigitChar(n % 10)]
  }

  /** The value a string of digits denotes. */
  function DigitsValue(s: string): nat
    requires AllDigits(s)
  {
    if s == [] then 0 else DigitsValue(s[..|s| - 1]) * 10 + DigitValue(s[|s| - 1])
  }

  /** Reading a rendered numeral back gives the number rendered. */
  lemma {:induction false} NatToStringRoundTrip(n: nat)
    ensures DigitsValue(NatToString(n)) == n
    decreases n
  {
    if n >= 10 {
      var s := NatToString(n);
      assert s[..|s| - 1] == NatToString(n / 10);
      NatToStringRoundTrip(n / 10);
    }
  }

  /** Distinct numbers render as distinct numerals. */
  lemma NatToStringInjective(a: nat, b: nat)
    requires NatToString(a) == NatToString(b)
    ensures a == b
  {
    NatToStringRoundTrip(a);
    NatToStringRoundTrip(b);
  }

  /** A numeral followed by text that starts with a non-digit ends where
      that text begins, so it can be read off the front of the whole. */
  lemma NumeralPrefixUnique(x: string, u: string, y: string, v: string)
    requires AllDigits(x) && AllDigits(y)
    requires u != [] && v != [] && !IsDigit(u[0]) && !IsDigit(v[0])
    requires x + u == y + v
    ensures x == y && u == v
  {
    assert x == (x + u)[..|x|];
    assert y == (y + v)[..|y|];
    assert u == (x + u)[|x|..];
    assert v == (y + v)[|y|..];
  }

  /** A numeral, a unit that starts with a non-digit, and the rest: the
      numeral and the rest are read back unambiguously. */
  lemma NumeralThenUnit(x: string, unit: string, t: string, y: string, w: string)
    requires AllDigits(x) && AllDigits(y) && unit != [] && !IsDigit(unit[0])
    requires x + (unit + t) == y + (unit + w)
    ensures x == y && t == w
  {
    NumeralPrefixUnique(x, unit + t, y, unit + w);
    assert t == (unit + t)[|unit|..];
    assert w == (unit + w)[|unit|..];
  }

  /** Python's `str` of an `int`: a minus sign before the numeral of a
      negative value. */
  function IntToString(i: int): (s: string)
    ensures |s| >= 1
    ensures i < 0 <==> s[0] == '-'
  {
    if i < 0 then "-" + NatToString(-i) else NatToString(i)
  }

  /** Distinct integers print differently. */
  lemma IntToStringInjective(a: int, b: int)
    requires IntToString(a) == IntToString(b)
    ensures a == b
  {
    if a < 0 && b < 0 {
      assert IntToString(a)[1..] == NatToString(-a);
      assert IntToString(b)[1..] == NatToString(-b);
      NatToStringInjective(-a, -b);
    } else if a >= 0 && b >= 0 {
      NatToStringInjective(a, b);
    }
    // mixed signs: the leading minus of `IntToString`'s contract tells them apart
  }
}

=== FILE: effects.dfy ===
/** What a client flow does to the outside world, in order: the requests it
    issues, the window events it dispatches, the alerts it shows and the
    pending-action flags it sets. A flow is modelled as the sequence of these
    effects it produces for given server replies. */
module Effects {

  import opened Common

  /** The window event that asks the shell to re-read stamina. */
  const StaminaUpdate: string := "stamina-update"

  /** The two fixed agents every client action is made on behalf of. */
  const DemoAgent1: string := "demo_agent_1"
  const DemoAgent2: string := "demo_agent_2"

  /** JSON request bodies. */
  datatype Body =
    | StartBattleBody(agentA: string, agentB: string, mode: string)
    | StrategyBody(agentId: string, strategy: string)
    | BuyBody(agentId: string, itemId: string)
    | VoteBody(voter: string, approve: bool)
    | PostBody(authorId: string, title: string, content: string, category: string)
    | ReactBody(reactor: string, reaction: string)

  datatype Effect =
    | Get(url: string)
    | Post(target: string, body: Body)
    | Dispatch(event: string)
    | Alert(message: string)
    | SetPurchasing(item: Option<string>)
    | SetVoting(proposal: Option<string>)
    | SetPosting(posting: bool)
    | ClearInput

  predicate IsDispatch(e: Effect) {
    e.Dispatch?
  }

  /** Number of effects in a trace that satisfy `p`. */
  function Count(trace: seq<Effect>, p: Effect -> bool): (n: nat)
    ensures n <= |trace|
    ensures n == 0 <==> forall i :: 0 <= i < |trace| ==> !p(trace[i])
  {
    if trace == [] then 0 else (if p(trace[0]) then 1 else 0) + Count(trace[1..], p)
  }

  /** `n` copies of one effect. */
  function Repeat(e: Effect, n: nat): (r: seq<Effect>)
    ensures |r| == n && forall i :: 0 <= i < n ==> r[i] == e
  {
    if n == 0 then [] else [e] + Repeat(e, n - 1)
  }
}

=== FILE: market_page.dfy ===
/** The market page (pages/Market.jsx): the shop list with its category
    filter, the pending proposals, and the purchase and vote flows with
    their pending-action flags. */
module MarketPage {

  import opened Common
  import opened Effects
  import Seqs

  const ShopUrl: string := "/api/v2/shop"
  const ProposalsUrl: string := "/api/v2/proposals"
  const BuyUrl: string := "/api/v2/shop/buy"

  /** How many pending proposals are displayed. */
  const ShownProposals: nat := 3

  datatype ShopItem = ShopItem(itemId: string, name: string, price: int, category: Option<string>)

  datatype Proposal = Proposal(id: string, status: string, itemName: Option<string>, description: Option<string>)

  /** The `proposals` field as received: missing (or falsy), an array, or
      some other JSON value, which the page guards against with
      `Array.isArray`. */
  datatype ProposalField = Absent | Listed(items: seq<Proposal>) | NotAList

  /** The two bodies `fetchData` reads together. */
  datatype MarketData = MarketData(shopItems: Option<seq<ShopItem>>, proposals: ProposalField)

  datatype PageState = PageState(
    shopItems: seq<ShopItem>,
    proposals: ProposalField,
    loading: bool,
    filter: string,
    purchasing: Option<string>,
    voting: Option<string>)

  /** Both reads of `fetchData`, the re-read every successful action issues. */
  const Refetch: seq<Effect> := [Get(ShopUrl), Get(ProposalsUrl)]

  /** `fetchData` once both replies are in; missing lists become empty. */
  function Fetched(s: PageState, reply: Reply<MarketData>): (r: PageState)
    ensures !r.loading && r.filter == s.filter && r.purchasing == s.purchasing && r.voting == s.voting
    ensures reply.Threw? ==> r.shopItems == s.shopItems && r.proposals == s.proposals
    ensures reply.Responded? ==>
              && (reply.body.shopItems.None? ==> r.shopItems == [])
              && (reply.body.shopItems.Some? ==> r.shopItems == reply.body.shopItems.value)
              && (reply.body.proposals.Absent? ==> r.proposals == Listed([]))
              && (!reply.body.proposals.Absent? ==> r.proposals == reply.body.proposals)
  {
    match reply
    case Threw => s.(loading := false)
    case Responded(_, d) =>
      var proposals := if d.proposals.Absent? then Listed([]) else d.proposals;
      s.(shopItems := d.shopItems.GetOr([]), proposals := proposals, loading := false)
  }

  /** The shop predicate: everything under `all`, otherwise a matching
      category or an item id containing the filter text. */
  function ShopShown(filter: string): ShopItem -> bool {
    (item: ShopItem) => filter == "all" || item.category == Some(filter) || Seqs.Includes(item.itemId, filter)
  }

  function VisibleItems(items: seq<ShopItem>, filter: string): (r: seq<ShopItem>)
    ensures forall x :: x in r <==>
              && x in items
              && (filter == "all" || x.category == Some(filter) || exists i :: Seqs.OccursAt(x.itemId, filter, i))
    ensures filter == "all" ==> r == items
  {
    var r := Seqs.Filter(items, ShopShown(filter));
    assert filter == "all" ==> r == items by {
      if filter == "all" {
        Seqs.FilterKeepsAll(items, ShopShown(filter));
      }
    }
    r
  }

  /** The filtered view of two lists shown one after the other is the two
      filtered views one after the other: order and repeats are kept. */
  lemma VisibleItemsKeepsOrder(a: seq<ShopItem>, b: seq<ShopItem>, filter: string)
    ensures VisibleItems(a + b, filter) == VisibleItems(a, filter) + VisibleItems(b, filter)
  {
    Seqs.FilterConcat(a, b, ShopShown(filter));
  }

  predicate IsPending(p: Proposal) {
    p.status == "pending"
  }

  /** The proposals displayed: the first three pending ones, in order; none
      when the field is not an array. */
  function DisplayedProposals(field: ProposalField): (r: seq<Proposal>)
    ensures |r| <= ShownProposals
    ensures forall i :: 0 <= i < |r| ==> r[i].status == "pending"
    ensures field.Listed? ==>
              var pending := Seqs.Filter(field.items, IsPending);
              r <= pending && |r| == Min(ShownProposals, |pending|)
    ensures !field.Listed? ==> r == []
  {
    if field.Listed? then Seqs.Take(Seqs.Filter(field.items, IsPending), ShownProposals) else []
  }

  /** Body of `POST /api/v2/shop/buy`. */
  datatype PurchaseReply = PurchaseReply(message: Option<string>, detail: Option<string>)

  function BuyRequest(itemId: string): Effect {
    Post(BuyUrl, BuyBody(DemoAgent1, itemId))
  }

  /** `handlePurchase(itemId)`. */
  function Purchase(itemId: string, reply: Reply<PurchaseReply>): (trace: seq<Effect>)
    // the flag marks the item first and is cleared last, whatever happens
    ensures |trace| >= 4 && trace[0] == SetPurchasing(Some(itemId)) && trace[1] == BuyRequest(itemId)
    ensures trace[|trace| - 1] == SetPurchasing(None)
    // only an accepted purchase signals stamina and re-reads
    ensures Count(trace, IsDispatch) > 0 <==> reply.Responded? && reply.ok
    ensures reply.Responded? && reply.ok ==>
              |trace| == 7 && trace[3] == Dispatch(StaminaUpdate) && trace[4..6] == Refetch
    ensures reply.Responded? && reply.ok ==>
              trace[2] == Alert("✅ " + OrElse(reply.body.message, "Purchase successful!"))
    ensures !(reply.Responded? && reply.ok) ==> |trace| == 4 && trace[2].Alert?
    ensures reply.Threw? ==> trace[2] == Alert("❌ Failed to purchase item")
    ensures reply.Responded? && !reply.ok ==>
              trace[2] == Alert("❌ " + OrElse(reply.body.detail, "Purchase failed"))
  {
    var start, end := [SetPurchasing(Some(itemId)), BuyRequest(itemId)], [SetPurchasing(None)];
    if reply.Responded? && reply.ok then
      var alert := Alert("✅ " + OrElse(reply.body.message, "Purchase successful!"));
      var trace := start + ([alert, Dispatch(StaminaUpdate)] + Refetch) + end;
      assert IsDispatch(trace[3]);
      trace
    else
      var alert := if reply.Threw? then Alert("❌ Failed to purchase item")
                   else Alert("❌ " + OrElse(reply.body.detail, "Purchase failed"));
      var trace := start + [alert] + end;
      assert forall i :: 0 <= i < |trace| ==> !IsDispatch(trace[i]);
      trace
  }

  /** Body of a rejected vote. */
  datatype VoteReply = VoteReply(detail: Option<string>)

  function VoteRequest(proposalId: string, approve: bool): Effect {
    Post("/api/v2/proposals/" + proposalId + "/vote", VoteBody(DemoAgent1, approve))
  }

  /** `handleVote(proposalId, approve)`. */
  function Vote(proposalId: string, approve: bool, reply: Reply<VoteReply>): (trace: seq<Effect>)
    ensures |trace| >= 4 && trace[0] == SetVoting(Some(proposalId)) && trace[1] == VoteRequest(proposalId, approve)
    ensures trace[|trace| - 1] == SetVoting(None)
    // voting never touches stamina
    ensures Count(trace, IsDispatch) == 0
    // an accepted vote re-reads, anything else only alerts
    ensures reply.Responded? && reply.ok ==>
              trace[2] == Alert("✅ Vote recorded: " + (if approve then "Approved" else "Rejected"))
              && |trace| == 6 && trace[3..5] == Refetch
    ensures !(reply.Responded? && reply.ok) ==> |trace| == 4 && trace[2].Alert?
    ensures reply.Threw? ==> trace[2] == Alert("❌ Failed to vote")
    ensures reply.Responded? && !reply.ok ==> trace[2] == Alert("❌ " + OrElse(reply.body.detail, "Vote failed"))
  {
    var outcome :=
      match reply
      case Threw => [Alert("❌ Failed to vote")]
      case Responded(ok, body) =>
        if ok then [Alert("✅ Vote recorded: " + (if approve then "Approved" else "Rejected"))] + Refetch
        else [Alert("❌ " + OrElse(body.detail, "Vote failed"))];
    [SetVoting(Some(proposalId)), VoteRequest(proposalId, approve)] + outcome + [SetVoting(None)]
  }

  /** The flag value a trace leaves behind. */
  function FinalPurchasing(start: Option<string>, trace: seq<Effect>): Option<string>
    decreases |trace|
  {
    if trace == [] then start
    else FinalPurchasing(if trace[0].SetPurchasing? then trace[0].item else start, trace[1..])
  }

  function FinalVoting(start: Option<string>, trace: seq<Effect>): Option<string>
    decreases |trace|
  {
    if trace == [] then start
    else FinalVoting(if trace[0].SetVoting? then trace[0].proposal else start, trace[1..])
  }

  /** A trace ending with a flag assignment leaves that value. */
  lemma {:induction false} FinalIsLastPurchasing(start: Option<string>, trace: seq<Effect>)
    requires |trace| > 0 && trace[|trace| - 1].SetPurchasing?
    ensures FinalPurchasing(start, trace) == trace[|trace| - 1].item
    decreases |trace|
  {
    if |trace| > 1 {
      FinalIsLastPurchasing(if trace[0].SetPurchasing? then trace[0].item else start, trace[1..]);
    }
  }

  lemma {:induction false} FinalIsLastVoting(start: Option<string>, trace: seq<Effect>)
    requires |trace| > 0 && trace[|trace| - 1].SetVoting?
    ensures FinalVoting(start, trace) == trace[|trace| - 1].proposal
    decreases |trace|
  {
    if |trace| > 1 {
      FinalIsLastVoting(if trace[0].SetVoting? then trace[0].proposal else start, trace[1..]);
    }
  }

  /** Whatever the outcome, no purchase and no vote stays pending. */
  lemma FlagsAlwaysCleared(start: Option<string>, itemId: string, buy: Reply<PurchaseReply>,
                           proposalId: string, approve: bool, vote: Reply<VoteReply>)
    ensures FinalPurchasing(start, Purchase(itemId, buy)) == None
    ensures FinalVoting(start, Vote(proposalId, approve, vote)) == None
  {
    FinalIsLastPurchasing(start, Purchase(itemId, buy));
    FinalIsLastVoting(start, Vote(proposalId, approve, vote));
  }
}

=== FILE: season_page.dfy ===
/** The season page (pages/Season.jsx): a one-second countdown with
    seconds, driven by an interval that lives exactly as long as the season
    it was created for, and the top of the leaderboard. */
module SeasonPage {

  import opened Common
  import Countdown
  import Seqs
  import Shell

  const LeaderboardUrl: string := "/api/v2/leaderboard"

  /** How many leaderboard rows are displayed. */
  const ShownRanks: nat := 10

  datatype Entry = Entry(agentId: string, elo: int)

  /** The two bodies `fetchData` reads together. */
  datatype SeasonData = SeasonData(currentSeason: Option<Shell.Season>, leaderboard: Option<seq<Entry>>)

  /** `interval` is the interval the current timer effect created and
      `live` the intervals registered with the browser; intervals are
      numbered in creation order. */
  datatype PageState = PageState(
    mounted: bool,
    current: Option<Shell.Season>,
    leaderboard: seq<Entry>,
    loading: bool,
    remaining: Countdown.Clock,
    interval: Option<nat>,
    live: set<nat>,
    nextInterval: nat)

  /** Just after mount: no season yet, so the timer effect created nothing,
      and the countdown reads all zeros. */
  const Initial: PageState := PageState(true, None, [], true, Countdown.Zero, None, {}, 0)

  /** `updateTimer`: a fresh reading while the season runs; once the end is
      reached, or without an end time, the last reading stays. */
  function UpdateTimer(remaining: Countdown.Clock, season: Option<Shell.Season>, now: int): (r: Countdown.Clock)
    ensures Shell.Running(season, now) ==>
              var diff := season.value.endTime.value - now;
              Countdown.InRange(r) && Countdown.Millis(r) <= diff < Countdown.Millis(r) + Countdown.MsPerSecond
    ensures !Shell.Running(season, now) ==> r == remaining
  {
    if Shell.Running(season, now) then Countdown.Decompose(season.value.endTime.value - now) else remaining
  }

  datatype PageEvent =
    | DataArrived(reply: Reply<SeasonData>)
    | TimerFired(now: int)
    | Unmount

  /** The only live interval is the current effect's, and it exists only for
      a mounted page whose season has an end time. */
  predicate Valid(s: PageState) {
    && s.live == (if s.interval.Some? then {s.interval.value} else {})
    && (s.interval.Some? ==> s.interval.value < s.nextInterval)
    && (s.interval.Some? ==> s.mounted && s.current.Some? && s.current.value.endTime.Some?)
  }

  /** The timer effect re-run for a new season: clear the previous interval,
      then create one only if the season has an end time. */
  function RestartTimer(s: PageState): PageState {
    var cleared := if s.interval.Some? then s.live - {s.interval.value} else s.live;
    if s.current.Some? && s.current.value.endTime.Some? then
      s.(interval := Some(s.nextInterval), live := cleared + {s.nextInterval}, nextInterval := s.nextInterval + 1)
    else
      s.(interval := None, live := cleared)
  }

  function Step(s: PageState, e: PageEvent): (r: PageState)
    ensures Valid(s) ==> Valid(r)
    // loading ends whatever the reply
    ensures s.mounted && e.DataArrived? ==> !r.loading
    // a thrown read keeps season and leaderboard
    ensures e.DataArrived? && e.reply.Threw? ==>
              r.current == s.current && r.leaderboard == s.leaderboard && r.live == s.live
    // an answered read takes the season, and an empty list for a missing leaderboard
    ensures s.mounted && e.DataArrived? && e.reply.Responded? ==>
              && r.current == e.reply.body.currentSeason
              && r.leaderboard == (if e.reply.body.leaderboard.Some? then e.reply.body.leaderboard.value else [])
              && (r.interval.Some? <==> r.current.Some? && r.current.value.endTime.Some?)
    // the interval only ticks while one is registered
    ensures e.TimerFired? && s.live == {} ==> r == s
    ensures e.TimerFired? ==> r == s.(remaining := r.remaining)
    // a tick of the live interval runs `updateTimer`
    ensures e.TimerFired? && s.live != {} ==> r.remaining == UpdateTimer(s.remaining, s.current, e.now)
    ensures Valid(s) && e.Unmount? ==> r.live == {} && !r.mounted
  {
    match e
    case DataArrived(reply) =>
      if !s.mounted then s
      else if reply.Threw? then s.(loading := false)
      else
        var d := reply.body;
        RestartTimer(s.(current := d.currentSeason, leaderboard := d.leaderboard.GetOr([]), loading := false))
    case TimerFired(now) =>
      if s.live == {} then s else s.(remaining := UpdateTimer(s.remaining, s.current, now))
    case Unmount =>
      var cleared := if s.interval.Some? then s.live - {s.interval.value} else s.live;
      s.(mounted := false, interval := None, live := cleared)
  }

  function Run(s: PageState, events: seq<PageEvent>): PageState
    decreases |events|
  {
    if events == [] then s else Run(Step(s, events[0]), events[1..])
  }

  /** No interval leaks: at most one is ever live, none once the page has
      unmounted, and only for a season with an end time. */
  lemma {:induction false} RunNeverLeaks(s: PageState, events: seq<PageEvent>)
    requires Valid(s)
    ensures var r := Run(s, events);
            && Valid(r)
            && |r.live| <= 1
            && (!r.mounted ==> r.live == {})
    decreases |events|
  {
    if events != [] {
      RunNeverLeaks(Step(s, events[0]), events[1..]);
    }
  }

  /** After an unmount nothing any later event does registers an interval
      or changes the page's data. */
  lemma {:induction false} UnmountIsFinal(s: PageState, events: seq<PageEvent>)
    requires Valid(s) && !s.mounted
    ensures var r := Run(s, events);
            r.live == {} && r.current == s.current && r.leaderboard == s.leaderboard && r.remaining == s.remaining
    decreases |events|
  {
    if events != [] {
      UnmountIsFinal(Step(s, events[0]), events[1..]);
    }
  }

  /** From mount on, the countdown starts at all zeros and whatever happens
      at most one interval is live. */
  lemma FromMount(events: seq<PageEvent>)
    ensures Initial.remaining == Countdown.Clock(0, 0, 0, 0) && Initial.leaderboard == []
    ensures |Run(Initial, events).live| <= 1
  {
    RunNeverLeaks(Initial, events);
  }

  /** The leaderboard rows displayed: nothing while loading, then the first
      ten entries in server order. */
  function Displayed(s: PageState): (r: seq<Entry>)
    ensures |r| <= ShownRanks && r <= s.leaderboard
    ensures !s.loading ==> |r| == Min(ShownRanks, |s.leaderboard|)
  {
    if s.loading then [] else Seqs.Take(s.leaderboard, ShownRanks)
  }
}

=== FILE: seqs.dfy ===
/** The array operations the pages use on fetched lists: `filter`,
    `slice(0, n)` and `String.prototype.includes`. */
module Seqs {

  import Common

  /** `xs.filter(p)`: the elements satisfying `p`, in their original order. */
  function Filter<T(!new)>(xs: seq<T>, p: T -> bool): (r: seq<T>)
    ensures |r| <= |xs|
    ensures forall i :: 0 <= i < |r| ==> p(r[i])
    ensures forall x :: x in r <==> x in xs && p(x)
    ensures forall x :: multiset(r)[x] == if p(x) then multiset(xs)[x] else 0
  {
    if xs == [] then []
    else
      var rest := Filter(xs[1..], p);
      assert xs == [xs[0]] + xs[1..];
      if p(xs[0]) then [xs[0]] + rest else rest
  }

  /** Filtering distributes over concatenation, so the kept elements keep
      their relative order. */
  lemma {:induction false} FilterConcat<T(!new)>(a: seq<T>, b: seq<T>, p: T -> bool)
    ensures Filter(a + b, p) == Filter(a, p) + Filter(b, p)
  {
    if a == [] {
      assert a + b == b;
    } else {
      assert (a + b)[1..] == a[1..] + b;
      FilterConcat(a[1..], b, p);
    }
  }

  /** A filter whose predicate holds everywhere keeps the whole list. */
  lemma {:induction false} FilterKeepsAll<T(!new)>(xs: seq<T>, p: T -> bool)
    requires forall i :: 0 <= i < |xs| ==> p(xs[i])
    ensures Filter(xs, p) == xs
  {
    if xs != [] {
      FilterKeepsAll(xs[1..], p);
    }
  }

  /** `f` applied to every element, in order. */
  function Map<T, U>(xs: seq<T>, f: T -> U): (r: seq<U>)
    ensures |r| == |xs|
    ensures forall i :: 0 <= i < |xs| ==> r[i] == f(xs[i])
  {
    if xs == [] then []
    else
      var rest := Map(xs[1..], f);
      assert forall i :: 1 <= i < |xs| ==> xs[i] == xs[1..][i - 1];
      [f(xs[0])] + rest
  }

  /** `xs.slice(0, n)`: the first `n` elements, or all of them. */
  function Take<T>(xs: seq<T>, n: nat): (r: seq<T>)
    ensures |r| == Common.Min(n, |xs|)
    ensures r <= xs
  {
    if |xs| <= n then xs else xs[..n]
  }

  /** `t` occurs in `s` starting at index `i`. */
  predicate OccursAt(s: string, t: string, i: int) {
    0 <= i && i + |t| <= |s| && s[i..i + |t|] == t
  }

  /** `s.includes(t)`: does `t` occur somewhere in `s`? */
  function Includes(s: string, t: string): (r: bool)
    ensures r <==> exists i :: OccursAt(s, t, i)
    decreases |s|
  {
    if |t| > |s| then
      assert forall i :: !OccursAt(s, t, i);
      false
    else if s[..|t|] == t then
      assert OccursAt(s, t, 0);
      true
    else
      var r := Includes(s[1..], t);
      ShiftOccurrence(s, t);
      r
  }

  /** Occurrences in `s[1..]` are the occurrences in `s` after index 0. */
  lemma ShiftOccurrence(s: string, t: string)
    requires |s| >= 1 && !OccursAt(s, t, 0)
    ensures (exists i :: OccursAt(s[1..], t, i)) <==> (exists i :: OccursAt(s, t, i))
  {
    forall i | OccursAt(s[1..], t, i)
      ensures OccursAt(s, t, i + 1)
    {
      assert s[1..][i..i + |t|] == s[i + 1..i + 1 + |t|];
    }
    forall i | OccursAt(s, t, i)
      ensures OccursAt(s[1..], t, i - 1)
    {
      assert i != 0;
      assert s[1..][i - 1..i - 1 + |t|] == s[i..i + |t|];
    }
  }
}

=== FILE: shell.dfy ===
/** The persistent navigation shell (components/Layout.jsx): the season
    banner countdown, the season and stamina snapshots it holds, and the one
    `stamina-update` listener it keeps registered on the window. */
module Shell {

  import opened Common
  import opened Effects
  import Countdown
  import Decimal

  const SeasonUrl: string := "/api/v2/seasons/current"
  const StaminaUrl: string := "/api/v2/agents/demo_agent_1/stamina"

  /** A season as the server describes it; `endTime` is the end instant in
      milliseconds, absent when the field is missing or empty. */
  datatype Season = Season(name: Option<string>, endTime: Option<int>)

  /** Body of `GET /api/v2/seasons/current`. */
  datatype SeasonBody = SeasonBody(currentSeason: Option<Season>)

  /** Body of `GET /api/v2/agents/{id}/stamina`, stored as received. */
  datatype Stamina = Stamina(current: Option<int>, max: Option<int>, costPerBattle: Option<int>)

  /** The banner's three units. */
  datatype Banner = Banner(days: int, hours: int, mins: int)

  function BannerMillis(b: Banner): int {
    b.days * Countdown.MsPerDay + b.hours * Countdown.MsPerHour + b.mins * Countdown.MsPerMinute
  }

  /** There is time left: a season with an end time that lies after `now`. */
  predicate Running(season: Option<Season>, now: int) {
    season.Some? && season.value.endTime.Some? && season.value.endTime.value - now > 0
  }

  /** Days, hours and minutes left, or nothing when there is no season, no
      end time, or the end time is not after `now`. */
  function RemainingUnits(season: Option<Season>, now: int): (r: Option<Banner>)
    ensures r.Some? <==> Running(season, now)
    ensures r.Some? ==>
              var diff := season.value.endTime.value - now;
              && r.value.days >= 0 && 0 <= r.value.hours < 24 && 0 <= r.value.mins < 60
              && BannerMillis(r.value) <= diff < BannerMillis(r.value) + Countdown.MsPerMinute
  {
    if !Running(season, now) then None
    else
      var c := Countdown.Decompose(season.value.endTime.value - now);
      Some(Banner(c.days, c.hours, c.mins))
  }

  /** The banner text `"<d>D : <h>H : <m>M"`. */
  function Render(b: Banner): string
    requires b.days >= 0 && b.hours >= 0 && b.mins >= 0
  {
    Decimal.NatToString(b.days) + ("D : " + (Decimal.NatToString(b.hours) + ("H : "
      + (Decimal.NatToString(b.mins) + "M"))))
  }

  /** The banner text determines the units it shows. */
  lemma RenderInjective(b1: Banner, b2: Banner)
    requires b1.days >= 0 && b1.hours >= 0 && b1.mins >= 0
    requires b2.days >= 0 && b2.hours >= 0 && b2.mins >= 0
    requires Render(b1) == Render(b2)
    ensures b1 == b2
  {
    var d1, h1, m1 := Decimal.NatToString(b1.days), Decimal.NatToString(b1.hours), Decimal.NatToString(b1.mins);
    var d2, h2, m2 := Decimal.NatToString(b2.days), Decimal.NatToString(b2.hours), Decimal.NatToString(b2.mins);
    Decimal.NumeralThenUnit(d1, "D : ", h1 + ("H : " + (m1 + "M")), d2, h2 + ("H : " + (m2 + "M")));
    Decimal.NumeralThenUnit(h1, "H : ", m1 + "M", h2, m2 + "M");
    Decimal.NumeralPrefixUnique(m1, "M", m2, "M");
    Decimal.NatToStringInjective(b1.days, b2.days);
    Decimal.NatToStringInjective(b1.hours, b2.hours);
    Decimal.NatToStringInjective(b1.mins, b2.mins);
  }

  /** `getTimeRemaining`: the banner text, or nothing. */
  function TimeRemaining(season: Option<Season>, now: int): (r: Option<string>)
    ensures r.Some? <==> Running(season, now)
    ensures r.Some? ==> r.value == Render(RemainingUnits(season, now).value)
  {
    match RemainingUnits(season, now)
    case None => None
    case Some(b) => Some(Render(b))
  }

  /** The banner is shown iff a season is held and `getTimeRemaining`
      yields a (non-empty, hence truthy) text. */
  function BannerShown(season: Option<Season>, now: int): (shown: bool)
    ensures shown <==> Running(season, now)
  {
    season.Some? && TimeRemaining(season, now).Some? && TimeRemaining(season, now).value != ""
  }

  /** Two days, three hours and four minutes (plus less than a minute)
      before the end the banner reads `2D : 3H : 4M`. */
  lemma BannerExample(name: Option<string>, now: int, rest: int)
    requires 0 <= rest < Countdown.MsPerMinute
    ensures var end := now + 2 * Countdown.MsPerDay + 3 * Countdown.MsPerHour + 4 * Countdown.MsPerMinute + rest;
            TimeRemaining(Some(Season(name, Some(end))), now) == Some("2D : 3H : 4M")
  {
    var end := now + 2 * Countdown.MsPerDay + 3 * Countdown.MsPerHour + 4 * Countdown.MsPerMinute + rest;
    var c := Countdown.Clock(2, 3, 4, rest / Countdown.MsPerSecond);
    assert end - now == Countdown.Millis(c) + rest % Countdown.MsPerSecond;
    Countdown.DecomposeUnique(c, rest % Countdown.MsPerSecond);
    assert RemainingUnits(Some(Season(name, Some(end))), now) == Some(Banner(2, 3, 4));
    assert Decimal.NatToString(2) == "2";
    assert Decimal.NatToString(3) == "3";
    assert Decimal.NatToString(4) == "4";
    assert Render(Banner(2, 3, 4)) == "2D : 3H : 4M";
  }

  // ---------------------------------------------------------------------
  // The shell as a state machine over route changes, arriving replies and
  // dispatched `stamina-update` events.
  // ---------------------------------------------------------------------

  /** `path` is the route the current effect ran for (absent before mount
      and after unmount); `handler` is the `fetchStamina` closure that
      effect registered, and `listeners` the window's `stamina-update`
      listeners. Handlers are numbered because each render makes a new
      closure. */
  datatype ShellState = ShellState(
    path: Option<string>,
    season: Option<Season>,
    stamina: Option<Stamina>,
    handler: Option<nat>,
    listeners: set<nat>,
    nextHandler: nat)

  /** `useState(null)` for both snapshots, nothing registered. */
  const Initial: ShellState := ShellState(None, None, None, None, {}, 0)

  datatype ShellEvent =
    | Navigate(to: string)
    | Unmount
    | SeasonArrived(seasonReply: Reply<SeasonBody>)
    | StaminaArrived(staminaReply: Reply<Stamina>)
    | StaminaSignal

  datatype Outcome = Outcome(state: ShellState, effects: seq<Effect>)

  /** The listener registered by the current effect, and only it. */
  predicate Valid(s: ShellState) {
    && s.listeners == (if s.handler.Some? then {s.handler.value} else {})
    && (s.path.Some? <==> s.handler.Some?)
    && (s.handler.Some? ==> s.handler.value < s.nextHandler)
  }

  /** The effect's cleanup: remove the listener it added. */
  function CleanedUp(s: ShellState): set<nat> {
    if s.handler.Some? then s.listeners - {s.handler.value} else s.listeners
  }

  function Step(s: ShellState, e: ShellEvent): (r: Outcome)
    ensures Valid(s) ==> Valid(r.state)
    // a route change re-reads both snapshots and swaps the listener
    ensures e.Navigate? && s.path != Some(e.to) ==>
              && r.effects == [Get(SeasonUrl), Get(StaminaUrl)]
              && r.state.path == Some(e.to)
              && r.state.season == s.season && r.state.stamina == s.stamina
              && (Valid(s) ==> |r.state.listeners| == 1 && r.state.listeners !! s.listeners)
    // staying on the same route re-runs nothing
    ensures e.Navigate? && s.path == Some(e.to) ==> r == Outcome(s, [])
    // a failed read keeps the previous snapshot
    ensures e == SeasonArrived(Threw) || e == StaminaArrived(Threw) ==> r == Outcome(s, [])
    // an answered read replaces its snapshot, whatever the status, and nothing else
    ensures e.SeasonArrived? && e.seasonReply.Responded? ==>
              r == Outcome(s.(season := e.seasonReply.body.currentSeason), [])
    ensures e.StaminaArrived? && e.staminaReply.Responded? ==>
              r == Outcome(s.(stamina := Some(e.staminaReply.body)), [])
    // every registered listener re-reads stamina once per event
    ensures e.StaminaSignal? ==>
              r.state == s && |r.effects| == |s.listeners|
              && forall i :: 0 <= i < |r.effects| ==> r.effects[i] == Get(StaminaUrl)
    ensures e.Unmount? && Valid(s) ==> r.state.listeners == {}
  {
    match e
    case Navigate(to) =>
      if s.path == Some(to) then Outcome(s, [])
      else
        var h := s.nextHandler;
        var s' := s.(path := Some(to), handler := Some(h), listeners := CleanedUp(s) + {h}, nextHandler := h + 1);
        Outcome(s', [Get(SeasonUrl), Get(StaminaUrl)])
    case Unmount =>
      Outcome(s.(path := None, handler := None, listeners := CleanedUp(s)), [])
    case SeasonArrived(reply) =>
      if reply.Threw? then Outcome(s, []) else Outcome(s.(season := reply.body.currentSeason), [])
    case StaminaArrived(reply) =>
      if reply.Threw? then Outcome(s, []) else Outcome(s.(stamina := Some(reply.body)), [])
    case StaminaSignal =>
      Outcome(s, Repeat(Get(StaminaUrl), |s.listeners|))
  }

  /** Events processed in order; the effects concatenate. */
  function Run(s: ShellState, events: seq<ShellEvent>): Outcome
    decreases |events|
  {
    if events == [] then Outcome(s, [])
    else
      var first := Step(s, events[0]);
      var rest := Run(first.state, events[1..]);
      Outcome(rest.state, first.effects + rest.effects)
  }

  /** Across any sequence of events from the initial state, at most one
      `stamina-update` listener is registered, and one exactly while
      mounted. */
  lemma {:induction false} RunKeepsOneListener(s: ShellState, events: seq<ShellEvent>)
    requires Valid(s)
    ensures Valid(Run(s, events).state)
    ensures |Run(s, events).state.listeners| <= 1
    ensures |Run(s, events).state.listeners| == 1 <==> Run(s, events).state.path.Some?
    decreases |events|
  {
    if events != [] {
      RunKeepsOneListener(Step(s, events[0]).state, events[1..]);
    }
  }

  /** From the initial state, whatever happens, at most one listener is
      registered, and exactly one while the shell is mounted. */
  lemma FromInitial(events: seq<ShellEvent>)
    ensures Valid(Initial)
    ensures |Run(Initial, events).state.listeners| <= 1
    ensures |Run(Initial, events).state.listeners| == 1 <==> Run(Initial, events).state.path.Some?
  {
    RunKeepsOneListener(Initial, events);
  }

  /** While mounted, a dispatched `stamina-update` re-reads stamina exactly
      once; with no listener it does nothing and fails nothing. */
  lemma SignalFetchesOnce(s: ShellState)
    requires Valid(s)
    ensures s.path.Some? ==> Step(s, StaminaSignal).effects == [Get(StaminaUrl)]
    ensures s.path.None? ==> Step(s, StaminaSignal).effects == []
  {
  }

  /** Concurrent stamina reads are not sequenced: whichever reply is
      processed last decides the snapshot. */
  lemma LastStaminaReplyWins(s: ShellState, ok1: bool, a: Stamina, ok2: bool, b: Stamina)
    ensures Run(s, [StaminaArrived(Responded(ok1, a)), StaminaArrived(Responded(ok2, b))]).state.stamina == Some(b)
  {
    var events := [StaminaArrived(Responded(ok1, a)), StaminaArrived(Responded(ok2, b))];
    var s1 := Step(s, events[0]).state;
    assert events[1..] == [StaminaArrived(Responded(ok2, b))];
    assert events[1..][1..] == [];
    assert Run(s1, events[1..]).state == Step(s1, events[1]).state;
  }
}

=== FILE: simulator.dfy ===
/** The proof-of-concept battle simulator (backend/poc_simulator.py): two
    agents start at 100 HP; each turn a judge assigns damage to both, HP is
    floored at zero, the match ends on a knock-out or after the last turn,
    and the agent with more HP wins. The judge is represented by its answer
    for each turn. */
module PocSimulator {

  import opened Common

  const MaxTurns: nat := 5
  const StartHp: int := 100
  const NameA: string := "Zero-K (Hacker)"
  const NameB: string := "Eldric (Mage)"
  const DrawResult: string := "Draw"

  /** The two damage fields of a judge's answer. */
  datatype Verdict = Verdict(damageToA: int, damageToB: int)

  /** Final HP of both agents and the answers that were applied. */
  datatype Outcome = Outcome(hpA: int, hpB: int, history: seq<Verdict>)

  /** `max(0, hp - damage)`. */
  function Hit(hp: int, damage: int): int {
    Max(0, hp - damage)
  }

  predicate KnockedOut(hpA: int, hpB: int) {
    hpA <= 0 || hpB <= 0
  }

  /** The turns from `turn` to `MaxTurns`: a failed judge call (`None`)
      skips the turn; an answer is applied and recorded, and a knock-out
      ends the match. */
  function Simulate(turn: nat, hpA: int, hpB: int, history: seq<Verdict>, judge: nat -> Option<Verdict>): (r: Outcome)
    ensures hpA >= 0 && hpB >= 0 ==> r.hpA >= 0 && r.hpB >= 0
    ensures history <= r.history
    ensures |r.history| <= |history| + Max(0, MaxTurns + 1 - turn)
    decreases MaxTurns + 1 - turn
  {
    if turn > MaxTurns then Outcome(hpA, hpB, history)
    else
      match judge(turn)
      case None => Simulate(turn + 1, hpA, hpB, history, judge)
      case Some(v) =>
        var a := Hit(hpA, v.damageToA);
        var b := Hit(hpB, v.damageToB);
        if KnockedOut(a, b) then Outcome(a, b, history + [v])
        else Simulate(turn + 1, a, b, history + [v], judge)
  }

  /** The judge's answers for turns `turn` to `MaxTurns`, in turn order,
      failed calls left out. */
  function Answers(turn: nat, judge: nat -> Option<Verdict>): seq<Verdict>
    decreases MaxTurns + 1 - turn
  {
    if turn > MaxTurns then []
    else
      match judge(turn)
      case None => Answers(turn + 1, judge)
      case Some(v) => [v] + Answers(turn + 1, judge)
  }

  /** The history records the judge's answers in turn order with none
      skipped or invented: it is a prefix of them. */
  lemma {:induction false} SimulateRecordsAnswers(turn: nat, hpA: int, hpB: int, history: seq<Verdict>,
                                                  judge: nat -> Option<Verdict>)
    ensures Simulate(turn, hpA, hpB, history, judge).history <= history + Answers(turn, judge)
    decreases MaxTurns + 1 - turn, 1
  {
    if turn <= MaxTurns {
      match judge(turn)
      case None =>
        SimulateRecordsAnswers(turn + 1, hpA, hpB, history, judge);
      case Some(v) =>
        AnsweredTurnRecorded(turn, hpA, hpB, history, judge, v);
    }
  }

  /** The step of `SimulateRecordsAnswers` for a turn the judge answered. */
  lemma {:induction false} AnsweredTurnRecorded(turn: nat, hpA: int, hpB: int, history: seq<Verdict>,
                                                judge: nat -> Option<Verdict>, v: Verdict)
    requires turn <= MaxTurns && judge(turn) == Some(v)
    ensures Simulate(turn, hpA, hpB, history, judge).history <= history + Answers(turn, judge)
    decreases MaxTurns + 1 - turn, 0
  {
    var a, b := Hit(hpA, v.damageToA), Hit(hpB, v.damageToB);
    var all := (history + [v]) + Answers(turn + 1, judge);
    assert history + Answers(turn, judge) == all;
    if !KnockedOut(a, b) {
      SimulateRecordsAnswers(turn + 1, a, b, history + [v], judge);
    }
  }

  /** A match that ends with both agents standing recorded every answer
      the judge gave. */
  lemma {:induction false} SimulateRecordsAllAnswers(turn: nat, hpA: int, hpB: int, history: seq<Verdict>,
                                                     judge: nat -> Option<Verdict>)
    ensures var r := Simulate(turn, hpA, hpB, history, judge);
            !KnockedOut(r.hpA, r.hpB) ==> r.history == history + Answers(turn, judge)
    decreases MaxTurns + 1 - turn, 1
  {
    if turn <= MaxTurns {
      match judge(turn)
      case None =>
        SimulateRecordsAllAnswers(turn + 1, hpA, hpB, history, judge);
      case Some(v) =>
        AnsweredTurnAllRecorded(turn, hpA, hpB, history, judge, v);
    }
  }

  /** The step of `SimulateRecordsAllAnswers` for a turn the judge answered. */
  lemma {:induction false} AnsweredTurnAllRecorded(turn: nat, hpA: int, hpB: int, history: seq<Verdict>,
                                                   judge: nat -> Option<Verdict>, v: Verdict)
    requires turn <= MaxTurns && judge(turn) == Some(v)
    ensures var r := Simulate(turn, hpA, hpB, history, judge);
            !KnockedOut(r.hpA, r.hpB) ==> r.history == history + Answers(turn, judge)
    decreases MaxTurns + 1 - turn, 0
  {
    var a, b := Hit(hpA, v.damageToA), Hit(hpB, v.damageToB);
    if !KnockedOut(a, b) {
      assert history + Answers(turn, judge) == (history + [v]) + Answers(turn + 1, judge);
      SimulateRecordsAllAnswers(turn + 1, a, b, history + [v], judge);
    }
  }

  /** HP after applying the answers in order, from the starting HP. */
  function Replay(history: seq<Verdict>): (int, int)
    decreases |history|
  {
    if history == [] then (StartHp, StartHp)
    else
      var before := Replay(history[..|history| - 1]);
      var v := history[|history| - 1];
      (Hit(before.0, v.damageToA), Hit(before.1, v.damageToB))
  }

  /** No answer was applied after a knock-out. */
  predicate AliveBefore(history: seq<Verdict>, upTo: nat)
    requires upTo <= |history|
  {
    forall k :: 0 <= k < upTo ==> !KnockedOut(Replay(history[..k]).0, Replay(history[..k]).1)
  }

  /** HP is exactly what the recorded answers produce, and every answer but
      possibly the last was applied to two standing agents. */
  lemma {:induction false} SimulateReplays(turn: nat, hpA: int, hpB: int, history: seq<Verdict>, judge: nat -> Option<Verdict>)
    requires Replay(history) == (hpA, hpB) && AliveBefore(history, |history|) && !KnockedOut(hpA, hpB)
    ensures var r := Simulate(turn, hpA, hpB, history, judge);
            Replay(r.history) == (r.hpA, r.hpB) && AliveBefore(r.history, |r.history|)
    ensures var r := Simulate(turn, hpA, hpB, history, judge);
            KnockedOut(r.hpA, r.hpB) ==> |r.history| > |history|
    decreases MaxTurns + 1 - turn
  {
    if turn <= MaxTurns {
      match judge(turn)
      case None =>
        SimulateReplays(turn + 1, hpA, hpB, history, judge);
      case Some(v) =>
        var a := Hit(hpA, v.damageToA);
        var b := Hit(hpB, v.damageToB);
        AppendAlive(history, v);
        if KnockedOut(a, b) {
          assert Simulate(turn, hpA, hpB, history, judge) == Outcome(a, b, history + [v]);
        } else {
          assert Simulate(turn, hpA, hpB, history, judge) == Simulate(turn + 1, a, b, history + [v], judge);
          SimulateReplays(turn + 1, a, b, history + [v], judge);
        }
    }
  }

  /** Recording one more answer after a standing pair keeps the history
      replayable and knock-out free up to its new last answer. */
  lemma AppendAlive(history: seq<Verdict>, v: Verdict)
    requires AliveBefore(history, |history|) && !KnockedOut(Replay(history).0, Replay(history).1)
    ensures Replay(history + [v]) == (Hit(Replay(history).0, v.damageToA), Hit(Replay(history).1, v.damageToB))
    ensures AliveBefore(history + [v], |history| + 1)
  {
    var h := history + [v];
    assert h[..|h| - 1] == history;
    forall k | 0 <= k < |h|
      ensures !KnockedOut(Replay(h[..k]).0, Replay(h[..k]).1)
    {
      if k < |history| {
        assert h[..k] == history[..k];
      } else {
        assert h[..k] == history;
      }
    }
  }

  /** A whole run from the starting HP: never negative HP, at most
      `MaxTurns` answers applied, HP determined by them, nothing applied
      after a knock-out, and the applied answers are the judge's, in turn
      order. */
  lemma WholeRun(judge: nat -> Option<Verdict>)
    ensures var r := Simulate(1, StartHp, StartHp, [], judge);
            && r.hpA >= 0 && r.hpB >= 0
            && |r.history| <= MaxTurns
            && Replay(r.history) == (r.hpA, r.hpB)
            && AliveBefore(r.history, |r.history|)
            && r.history <= Answers(1, judge)
            && (!KnockedOut(r.hpA, r.hpB) ==> r.history == Answers(1, judge))
  {
    SimulateReplays(1, StartHp, StartHp, [], judge);
    SimulateRecordsAnswers(1, StartHp, StartHp, [], judge);
    SimulateRecordsAllAnswers(1, StartHp, StartHp, [], judge);
    assert [] + Answers(1, judge) == Answers(1, judge);
  }

  /** `run_simulation`'s loop. */
  method RunSimulation(judge: nat -> Option<Verdict>) returns (hpA: int, hpB: int, history: seq<Verdict>)
    ensures Outcome(hpA, hpB, history) == Simulate(1, StartHp, StartHp, [], judge)
    ensures hpA >= 0 && hpB >= 0 && |history| <= MaxTurns
  {
    hpA, hpB, history := StartHp, StartHp, [];
    var turn := 1;
    while turn <= MaxTurns
      invariant 1 <= turn <= MaxTurns + 1
      invariant hpA >= 0 && hpB >= 0 && |history| <= turn - 1
      invariant Simulate(turn, hpA, hpB, history, judge) == Simulate(1, StartHp, StartHp, [], judge)
      decreases MaxTurns + 1 - turn
    {
      var result := judge(turn);
      if result.Some? {
        hpA := Hit(hpA, result.value.damageToA);
        hpB := Hit(hpB, result.value.damageToB);
        history := history + [result.value];
        if KnockedOut(hpA, hpB) {
          break;
        }
      }
      turn := turn + 1;
    }
  }

  /** The winner line: the agent with strictly more HP, `Draw` on a tie. */
  function Winner(hpA: int, hpB: int): (w: string)
    ensures w == NameA <==> hpA > hpB
    ensures w == NameB <==> hpB > hpA
    ensures w == DrawResult <==> hpA == hpB
  {
    if hpA > hpB then NameA else if hpB > hpA then NameB else DrawResult
  }

  // ---------------------------------------------------------------------
  // `generate_mock_action`
  // ---------------------------------------------------------------------

  datatype AgentKey = AgentA | AgentB

  datatype ActionType = Attack | Defend

  datatype MockAction = MockAction(agentName: string, kind: ActionType, intensity: int)

  function AgentName(k: AgentKey): string {
    match k
    case AgentA => NameA
    case AgentB => NameB
  }

  /** A mock action from two random draws: `roll` for `random.random()` and
      `draw` for `random.randint(1, 10)`, which yields `1 + draw % 10`. */
  function GenerateMockAction(agent: AgentKey, roll: real, draw: int): (a: MockAction)
    ensures a.kind == Attack <==> roll > 0.3
    ensures 1 <= a.intensity <= 10
    ensures a.agentName == AgentName(agent)
  {
    MockAction(AgentName(agent), if roll > 0.3 then Attack else Defend, 1 + draw % 10)
  }

  /** Every intensity from 1 to 10 can be drawn. */
  lemma EveryIntensityReachable(agent: AgentKey, roll: real, k: int)
    requires 1 <= k <= 10
    ensures GenerateMockAction(agent, roll, k - 1).intensity == k
  {
  }
}

=== FILE: worker.dfy ===
/** The tick worker (backend/worker/main.py): it judges queued and
    automatic actions, applies the judged damage to the opponent with a
    floor at zero, and advances the match turn. The backend and the judge
    are represented by the replies they gave. */
module Worker {

  import opened Common
  import Decimal
  import Seqs

  /** Damage assumed when the judge's answer has no `damage` field. */
  const DefaultDamage: int := 10
  const DefaultDescription: string := "The attack lands!"
  const DefaultKeyword: string := "Attack"
  const AutoKeyword: string := "Auto-Attack"
  const QuickBattle: string := "QUICK"

  /** Narratives of automatic actions, one chosen at random. */
  const Templates: seq<string> := [
    "launches a recursive loop attack!",
    "deploys a logic bomb.",
    "overloads the neural buffer.",
    "injects a SQL query."
  ]

  datatype Match = Match(id: string, agent1: string, agent2: string, hpA: int, hpB: int,
                         turn: int, battleType: Option<string>)

  datatype Action = Action(matchId: string, agentId: string, narrative: string, keyword: Field<string>)

  /** The judge's parsed answer; a present `null` is told apart from a
      missing member because `.get` defaults only the latter. */
  datatype Judgement = Judgement(damage: Field<int>, description: Field<string>)

  /** The backend's answer to the match lookup. */
  datatype Lookup = LookupRaised | LookupAnswered(status: int, found: Match)

  /** What the world answered while one action was processed; `judge` is
      absent when the judge call or its parsing raised. */
  datatype Replies = Replies(lookup: Lookup, judge: Option<Judgement>)

  /** The payload posted to `/internal/match/update`. */
  datatype Update = Update(matchId: string, hpA: int, hpB: int, turn: int, log: string)

  /** `max(0, hp - damage)`. */
  function Hit(hp: int, damage: int): (r: int)
    ensures r >= 0
    ensures damage >= 0 ==> r <= Max(hp, 0)
    ensures hp - damage >= 0 ==> r == hp - damage
    ensures hp - damage < 0 ==> r == 0
  {
    Max(0, hp - damage)
  }

  /** `result.get("damage", 10)` when it is a number: a missing member
      gives the default; a `null` one gives `None`, which has no number. */
  function DamageOf(j: Judgement): (d: Option<int>)
    ensures d.None? <==> j.damage.Null?
    ensures j.damage.Missing? ==> d == Some(DefaultDamage)
    ensures j.damage.Present? ==> d == Some(j.damage.value)
  {
    match j.damage
    case Missing => Some(DefaultDamage)
    case Null => None
    case Present(v) => Some(v)
  }

  /** The end of the log line, which reports the damage dealt. */
  function DmgSuffix(damage: int): string {
    " (DMG: " + Decimal.IntToString(damage) + ")"
  }

  /** The label of the acting agent. */
  function Attacker(isAgentA: bool): string {
    if isAgentA then "Agent A" else "Agent B"
  }

  /** The log line `f"{attacker} used {keyword}: {desc} (DMG: {damage})"`,
      each member printed as `str(d.get(k, default))` prints it. */
  function LogLine(isAgentA: bool, keyword: Field<string>, description: Field<string>, damage: int): (log: string)
    ensures var opening, middle := Attacker(isAgentA) + " used ",
                                   PyGetStr(keyword, DefaultKeyword) + ": " + PyGetStr(description, DefaultDescription);
            && |log| == |opening| + |middle| + |DmgSuffix(damage)|
            && log[..|opening|] == opening
            && log[|opening|..|opening| + |middle|] == middle
            && log[|opening| + |middle|..] == DmgSuffix(damage)
  {
    var opening := Attacker(isAgentA) + " used ";
    var middle := PyGetStr(keyword, DefaultKeyword) + ": " + PyGetStr(description, DefaultDescription);
    var log := opening + middle + DmgSuffix(damage);
    assert log[..|opening|] == opening;
    assert log[|opening|..|opening| + |middle|] == middle;
    log
  }

  /** The damage can be read back from the log line: lines that differ
      only in the damage differ. */
  lemma LogLineShowsDamage(isAgentA: bool, keyword: Field<string>, description: Field<string>, x: int, y: int)
    requires LogLine(isAgentA, keyword, description, x) == LogLine(isAgentA, keyword, description, y)
    ensures x == y
  {
    var sx, sy := DmgSuffix(x), DmgSuffix(y);
    assert sx == sy;
    assert Decimal.IntToString(x) == sx[7..|sx| - 1];
    assert Decimal.IntToString(y) == sy[7..|sy| - 1];
    Decimal.IntToStringInjective(x, y);
  }

  /** One action: skipped unless the lookup answered 200 and the judge
      answered with a damage that is not `null` (subtracting `None` raises,
      and the handler skips the action); otherwise the acting agent's
      opponent takes the damage. */
  function Judge(action: Action, replies: Replies): (r: Option<Update>)
    ensures r.Some? <==>
              && replies.lookup.LookupAnswered? && replies.lookup.status == 200
              && replies.judge.Some? && !replies.judge.value.damage.Null?
    ensures r.Some? ==>
              var m := replies.lookup.found;
              var damage := DamageOf(replies.judge.value).value;
              && r.value.matchId == action.matchId
              && r.value.turn == m.turn + 1
              // the line names the attacker, the keyword, the judge's text and the damage dealt
              && r.value.log == LogLine(action.agentId == m.agent1, action.keyword, replies.judge.value.description, damage)
              && (action.agentId == m.agent1 ==> r.value.hpA == m.hpA && r.value.hpB == Hit(m.hpB, damage))
              && (action.agentId != m.agent1 ==> r.value.hpB == m.hpB && r.value.hpA == Hit(m.hpA, damage))
  {
    match replies.lookup
    case LookupRaised => None
    case LookupAnswered(status, m) =>
      if status != 200 || replies.judge.None? || DamageOf(replies.judge.value).None? then None
      else
        var verdict := replies.judge.value;
        var isAgentA := action.agentId == m.agent1;
        var damage := DamageOf(verdict).value;
        var log := LogLine(isAgentA, action.keyword, verdict.description, damage);
        var hpA := if isAgentA then m.hpA else Hit(m.hpA, damage);
        var hpB := if isAgentA then Hit(m.hpB, damage) else m.hpB;
        Some(Update(action.matchId, hpA, hpB, m.turn + 1, log))
  }

  /** `process_batch`: the updates posted, in action order. */
  function ProcessBatch(batch: seq<(Action, Replies)>): (r: seq<Update>)
    ensures |r| <= |batch|
    ensures batch == [] ==> r == []
    ensures forall u :: u in r ==> exists i :: 0 <= i < |batch| && Judge(batch[i].0, batch[i].1) == Some(u)
  {
    if batch == [] then []
    else
      var rest := ProcessBatch(batch[1..]);
      assert forall u :: u in rest ==> exists i :: 0 <= i < |batch| && Judge(batch[i].0, batch[i].1) == Some(u) by {
        forall u | u in rest
          ensures exists i :: 0 <= i < |batch| && Judge(batch[i].0, batch[i].1) == Some(u)
        {
          var j :| 0 <= j < |batch[1..]| && Judge(batch[1..][j].0, batch[1..][j].1) == Some(u);
          assert batch[j + 1] == batch[1..][j];
        }
      }
      match Judge(batch[0].0, batch[0].1)
      case None => rest
      case Some(u) => [u] + rest
  }

  /** Actions are processed independently of each other. */
  lemma {:induction false} ProcessBatchConcat(a: seq<(Action, Replies)>, b: seq<(Action, Replies)>)
    ensures ProcessBatch(a + b) == ProcessBatch(a) + ProcessBatch(b)
  {
    if a == [] {
      assert a + b == b;
    } else {
      assert (a + b)[1..] == a[1..] + b;
      ProcessBatchConcat(a[1..], b);
    }
  }

  /** One action alone posts exactly its judgement, if any; with
      `ProcessBatchConcat` this determines every batch. */
  lemma ProcessBatchSingle(x: (Action, Replies))
    ensures ProcessBatch([x]) == if Judge(x.0, x.1).Some? then [Judge(x.0, x.1).value] else []
  {
  }

  /** Nothing judged is lost: every action the lookup and the judge
      answered has its update posted. */
  lemma {:induction false} ProcessBatchComplete(batch: seq<(Action, Replies)>)
    ensures forall i :: 0 <= i < |batch| && Judge(batch[i].0, batch[i].1).Some? ==>
              Judge(batch[i].0, batch[i].1).value in ProcessBatch(batch)
  {
    if batch != [] {
      ProcessBatchComplete(batch[1..]);
      forall i | 0 <= i < |batch| && Judge(batch[i].0, batch[i].1).Some?
        ensures Judge(batch[i].0, batch[i].1).value in ProcessBatch(batch)
      {
        if i > 0 {
          assert batch[i] == batch[1..][i - 1];
        }
      }
    }
  }

  /** An action whose lookup did not answer 200 posts nothing. */
  lemma SkippedLookup(a: seq<(Action, Replies)>, x: (Action, Replies), b: seq<(Action, Replies)>)
    requires !(x.1.lookup.LookupAnswered? && x.1.lookup.status == 200)
    ensures ProcessBatch(a + [x] + b) == ProcessBatch(a + b)
  {
    ProcessBatchConcat(a + [x], b);
    ProcessBatchConcat(a, [x]);
    ProcessBatchConcat(a, b);
  }

  // ---------------------------------------------------------------------
  // One tick of `tick_worker`
  // ---------------------------------------------------------------------

  /** A backend GET: it raised, or answered with a status and a body. */
  datatype HttpReply<+B> = Raised | Status(code: int, body: B)

  /** Body of `/internal/queue/pop`. */
  datatype QueueBody = QueueBody(actions: Field<seq<Action>>)

  predicate IsQuick(m: Match) {
    m.battleType == Some(QuickBattle)
  }

  /** The agent due to act: the first agent on odd turns, the second on
      even ones (turn 1 is the first agent's). */
  function AutoActor(m: Match): (actor: string)
    ensures m.turn % 2 == 1 ==> actor == m.agent1
    ensures m.turn % 2 == 0 ==> actor == m.agent2
  {
    if m.turn % 2 != 0 then m.agent1 else m.agent2
  }

  /** The automatic action for one QUICK match: the agent due to act
      attacks with a narrative `pick` chooses among the templates. */
  function AutoAction(m: Match, pick: Match -> nat): (a: Action)
    ensures a.matchId == m.id && a.agentId == AutoActor(m)
    ensures a.keyword == Present(AutoKeyword) && a.narrative in Templates
  {
    Action(m.id, AutoActor(m), Templates[pick(m) % |Templates|], Present(AutoKeyword))
  }

  /** The automatic actions for the active matches: one per QUICK match, in
      order. */
  function AutoActions(matches: seq<Match>, pick: Match -> nat): (r: seq<Action>)
    ensures var quick := Seqs.Filter(matches, IsQuick);
            && |r| == |quick|
            && forall i :: 0 <= i < |r| ==> r[i] == AutoAction(quick[i], pick)
  {
    Seqs.Map(Seqs.Filter(matches, IsQuick), (m: Match) => AutoAction(m, pick))
  }

  /** The actions one tick processes, or `None` when the tick raised and
      processed nothing. The popped queue (empty unless it answered 200,
      `None` in Python when its `actions` member is `null`) comes first,
      then the automatic actions (none unless the active list answered
      200). The tick raises when either request raises, and when an
      automatic action is appended to a `None` queue; a `None` queue with
      nothing appended is falsy and processes nothing. Popped actions are
      lost whenever the tick raises. */
  function TickActions(queue: HttpReply<QueueBody>, active: HttpReply<seq<Match>>, pick: Match -> nat): (r: Option<seq<Action>>)
    ensures r.None? <==>
              || queue.Raised? || active.Raised?
              || (queue.code == 200 && queue.body.actions.Null? && active.code == 200
                  && exists i :: 0 <= i < |active.body| && IsQuick(active.body[i]))
    ensures r.Some? && queue.code == 200 && queue.body.actions.Null? ==> r.value == []
    ensures r.Some? && queue.code != 200 && active.code != 200 ==> r.value == []
    ensures r.Some? && queue.code == 200 && queue.body.actions.Present? ==> queue.body.actions.value <= r.value
    ensures r.Some? && queue.code == 200 && queue.body.actions.Missing? && active.code != 200 ==> r.value == []
    ensures r.Some? && queue.code != 200 && active.code == 200 ==> r.value == AutoActions(active.body, pick)
    ensures r.Some? && queue.code == 200 && queue.body.actions.Present? && active.code != 200 ==>
              r.value == queue.body.actions.value
    // both reads answered: the popped actions, then every automatic one
    ensures r.Some? && queue.code == 200 && !queue.body.actions.Null? && active.code == 200 ==>
              r.value == (if queue.body.actions.Present? then queue.body.actions.value else [])
                         + AutoActions(active.body, pick)
  {
    if queue.Raised? || active.Raised? then None
    else
      var auto: seq<Action> := if active.code == 200 then AutoActions(active.body, pick) else [];
      assert auto != [] <==> active.code == 200 && exists i :: 0 <= i < |active.body| && IsQuick(active.body[i]) by {
        if active.code == 200 {
          QuickActionsExist(active.body, pick);
        }
      }
      if queue.code == 200 && queue.body.actions.Null? then
        if auto != [] then None else Some([])
      else
        var popped: seq<Action> := if queue.code == 200 && queue.body.actions.Present? then queue.body.actions.value else [];
        assert popped <= popped + auto;
        Some(popped + auto)
  }

  /** Some automatic action is made iff some active match is QUICK. */
  lemma QuickActionsExist(matches: seq<Match>, pick: Match -> nat)
    ensures AutoActions(matches, pick) != [] <==> exists i :: 0 <= i < |matches| && IsQuick(matches[i])
  {
  }

  /** A queue answer `{"actions": null}` next to one QUICK match: the
      automatic action is appended to `None`, the tick raises, and nothing
      is processed. */
  lemma NullQueueLosesTick(m: Match, pick: Match -> nat)
    requires IsQuick(m)
    ensures TickActions(Status(200, QueueBody(Null)), Status(200, [m]), pick) == None
  {
  }
}
